=== FILE: README.md ===
# better-menu launcher core, modelled in Dafny

better-menu is a GTK application launcher with a built-in calculator. A search
box sits over a list of rows. Each row is either an installed application or,
when the query is an arithmetic expression, a calculator row labelled
`<query> = <result>`. This project models, as pure functions over strings and
sequences, the logic inside `src/main.rs`, and proves properties of it:

- **Discovery** (`collect_desktop_files`): a depth-first walk over a directory
  tree that keeps files whose extension is exactly `desktop`.
- **Paths** (`sort` + `dedup`): `PathBuf` ordering, compared component by
  component, followed by sorting and removal of adjacent duplicates. A `..`
  component (`Component::ParentDir`) sorts before every named component, and
  two names compare by code point.
- **DesktopEntry** (`parse_desktop_file`): a one-pass scan of the lines of a
  `.desktop` file and the decision made after the scan.
- **Catalog** (`load_desktop_entries`): the row list and the name → command
  map, and the initial selection.
- **ExecCommand**: `clean_exec_command` (deletion of seven field codes, then
  `trim`) and the argument vector built by `launch_application`.
- **MathEval**: the input rewriting of `evaluate_math_expression`. When the
  query holds a '/', every token that parses as an `i64` (optional sign,
  decimal digits, value in range) gets ".0". Digit strings beyond the 64-bit
  range are kept as they are.
- **Query**: the search-box handlers, covering:
  - on change: stripping stale calculator rows, prepending a new one, the
    filter, and the idle selection scan;
  - on Enter and on row activation: the commit;
  - the arrow keys.
- **Strings**: the Rust `str` operations the above rely on:
  - `find`, `replace`, `split(..).last()`;
  - `trim`, `trim_start_matches`, `split_whitespace`, `join`, `lines`;
  - ASCII `to_lowercase`.

  They follow Rust's semantics: pattern search is leftmost and
  non-overlapping, and whitespace is Unicode `White_Space`.

Modelling choices:

- **File system.** It is given as a tree (`Discovery.Node`) and a map from
  path to file text (`Catalog.Read`). A missing key is a failed read.
- **Expression evaluator.** `evalexpr::eval`, followed by formatting its value,
  is a function parameter `eval: String -> Option<String>`.
- **List widget.** It is the sequence of row labels, the selected index and
  the filter query. GTK's `row_at_index` and `ListBoxRow::index` count every
  row, shown or hidden, so indices here are indices into the whole list. The
  selection follows its row: prepending shifts it, and removing the selected
  row clears it.

## Model

| member | source | states |
|---|---|---|
| Strings.Lower | src/main.rs:221 | lower-casing keeps the length and maps each character on its own: ASCII capitals drop to small letters, every other character is kept |
| Strings.LowerIdempotent | src/main.rs:221 | lower-casing an already lower-cased query changes nothing |
| Strings.Find | src/main.rs:176 | `find` returns nothing exactly when the pattern does not occur, and otherwise the leftmost occurrence |
| Strings.FindFromIsLeftmost | src/main.rs:176 | no occurrence lies between the start of the scan and the match it reports, nor after the start when it reports none |
| Strings.Replace | src/main.rs:482-488 | `replace` leaves a string without an occurrence of the pattern unchanged |
| Strings.ReplaceIsJoin | src/main.rs:482-488 | `replace` equals `split` at the same leftmost, non-overlapping matches followed by `join` with the replacement, so every match is replaced and nothing else changes |
| Strings.ReplaceLeadingMatch | src/main.rs:482-488 | a match at the front is rewritten and the scan resumes right after it, so matches never overlap |
| Strings.ReplaceAfterPrefix | src/main.rs:482-488 | a prefix without the pattern's first character passes through `replace` untouched |
| Strings.ReplaceFromEmptyShrinks | src/main.rs:482-488 | replacing by the empty string never lengthens the text |
| Strings.LastStartIsLastOfSplit | src/main.rs:177 | the last piece of `split` is the text from the end of the final non-overlapping match to the end of the string |
| Strings.LastStartIsClear | src/main.rs:177 | no occurrence of the pattern starts inside the last piece |
| Strings.LastStartReaches | src/main.rs:177 | a scan started before an occurrence that no earlier match overlaps passes through that occurrence |
| Strings.Trim | src/main.rs:489 | `trim` yields a substring of its input with no whitespace at either end, and everything cut off before and after it is whitespace |
| Strings.TrimEmpty | src/main.rs:489 | trimming yields the empty string exactly when the input is all whitespace |
| Strings.TrimStartMatches | src/main.rs:425 | the line is some number of whole copies of the pattern followed by the result, and the result does not start with the pattern |
| Strings.TrimStartMatchesOfRepeat | src/main.rs:425 | any number of copies of the pattern followed by a text not starting with it strips to exactly that text |
| Strings.SplitWhitespace | src/main.rs:467 | every token is non-empty and holds no whitespace |
| Strings.SplitWhitespaceEmpty | src/main.rs:467 | there are no tokens exactly when the text is all whitespace |
| Strings.SplitJoinRoundTrip | src/main.rs:54-60 | joining whitespace-free tokens with single spaces and splitting again gives the tokens back |
| Strings.Lines | src/main.rs:423 | the text is empty exactly when it has no lines, and no line holds a '\n' |
| Strings.LinesOfTerminated | src/main.rs:423 | lines each followed by "\n" read back as themselves when none ends in '\r' |
| Strings.LinesOfCrLfTerminated | src/main.rs:423 | lines each followed by "\r\n" read back as themselves, each losing exactly the one '\r' of its terminator |
| ExecCommand.Clean | src/main.rs:481-491 | the cleaned command is never longer than the template and has no whitespace at either end |
| ExecCommand.CleanWithoutPercent | src/main.rs:481-491 | a template without '%' is only trimmed |
| ExecCommand.CleanNotIdempotent | src/main.rs:481-491 | cleaning "%%ff" gives "%f", and cleaning that again gives "", so cleaning twice differs from cleaning once |
| ExecCommand.CleanIdempotentWithoutPercent | src/main.rs:481-491 | once the cleaned command has no '%' left, cleaning it again changes nothing |
| ExecCommand.DeleteAllTrailingCode | src/main.rs:482-488 | a '%'-free text followed by exactly one field code loses that code and nothing else |
| ExecCommand.LaunchArgv | src/main.rs:463-470 | nothing is spawned exactly when the cleaned command is empty; otherwise the program and every argument are non-empty and whitespace-free |
| ExecCommand.LaunchArgvOfPlainWords | src/main.rs:463-470 | a command written as '%'-free words separated by single spaces launches exactly those words: the first as the program, the rest as arguments |
| ExecCommand.LaunchArgvOfTrailingCode | src/main.rs:463-470 | `<program> %u` (or any other field code) spawns the program with no arguments |
| DesktopEntry.ValueOf | src/main.rs:425 | the line is whole copies of the key followed by the value, and the value does not start with the key |
| DesktopEntry.ValueAfterKey | src/main.rs:424-425 | the value of `key + v` is `v` when `v` does not start with the key |
| DesktopEntry.ValueStripsRepeatedKey | src/main.rs:424-425 | a repeated key is stripped too: `Name=Name=X` names `X` |
| DesktopEntry.KeepFirst | src/main.rs:424-432 | a slot that holds a value keeps it; an empty slot takes the value of a matching line |
| DesktopEntry.Step | src/main.rs:433-442 | a raised `NoDisplay` or `Hidden` flag is never lowered by a line |
| DesktopEntry.ScanLines | src/main.rs:423-446 | flags raised before the scan stay raised after it |
| DesktopEntry.ScanSlot | src/main.rs:424-432 | a slot ends up with its earlier value if it had one, and otherwise with the value of the first line carrying its key |
| DesktopEntry.ScanFlag | src/main.rs:433-442 | a flag ends up raised exactly when it was raised before or some line of its key says "true" in any case |
| DesktopEntry.ScanIsComponentwise | src/main.rs:423-446 | the scan of all six variables is the six scans of each variable on its own |
| DesktopEntry.ScanMatchesReference | src/main.rs:423-446 | after the loop, each slot holds the first value of its key and each flag says whether any line of its key says "true" |
| DesktopEntry.Decide | src/main.rs:448-459 | an entry comes out exactly when neither flag is raised, the type is "Application" and name, icon and command are all present |
| DesktopEntry.Parse | src/main.rs:414-415 | a file that cannot be read yields nothing |
| DesktopEntry.ParseAccepts | src/main.rs:414-460 | a readable file is accepted exactly when no NoDisplay/Hidden line says "true", the first Type is "Application" and Name, Icon and Exec lines occur; the entry carries the first value of each |
| DesktopEntry.FlagLineRejects | src/main.rs:433-450 | a single NoDisplay=true or Hidden=true line rejects the file, wherever it stands and whatever the other lines say |
| Paths.PathLessIrreflexive | src/main.rs:352 | no path sorts before itself |
| Paths.PathLessTransitive | src/main.rs:352 | the path order is transitive |
| Paths.PathLessTotal | src/main.rs:352 | any two different paths are ordered one way or the other |
| Paths.PathLessAsymmetric | src/main.rs:352 | two paths never sort before each other |
| Paths.ParentFirst | src/main.rs:352 | a directory sorts before every path beneath it |
| Paths.CompLessStrictTotal | src/main.rs:352 | components are strictly and totally ordered, and `..` sorts before every other component |
| Paths.ParentDirBeforeName | src/main.rs:352 | where two paths first differ, a `..` component puts its path first, whatever follows |
| Paths.Insert | src/main.rs:352 | inserting adds exactly one copy of the path to the multiset of paths |
| Paths.InsertKeepsSorted | src/main.rs:352 | inserting into a sorted list keeps it sorted |
| Paths.Sort | src/main.rs:352 | `sort` returns a sorted permutation of its input |
| Paths.SortedIsUnique | src/main.rs:352 | two sorted permutations of the same paths are the same list, so the result does not depend on the sorting algorithm |
| Paths.Dedup | src/main.rs:353 | `dedup` keeps the same set of paths and the first path, and never lengthens the list |
| Paths.DedupSortedIncreasing | src/main.rs:352-353 | deduplicating a sorted list leaves it strictly increasing |
| Paths.IncreasingDistinct | src/main.rs:352-353 | a strictly increasing list holds no path twice |
| Paths.SortDedup | src/main.rs:352-353 | sort then dedup gives a strictly increasing list with the same paths as the input |
| Discovery.Extension | src/main.rs:405 | an extension is a suffix of the file name and holds no '.' |
| Discovery.DesktopNameIff | src/main.rs:405 | a name passes the filter exactly when it ends in ".desktop" with at least one character before that suffix |
| Discovery.CollectDir | src/main.rs:401-412 | every path found lies strictly beneath the directory and names a `.desktop` file |
| Discovery.CollectEntries | src/main.rs:403-410 | every path found from a listing lies beneath its directory and names a `.desktop` file |
| Discovery.CollectEntriesComplete | src/main.rs:401-412 | the walk finds a path exactly when it names a desktop file reachable through readable directories |
| Discovery.CollectRoots | src/main.rs:345-350 | every path found names a `.desktop` file |
| Discovery.CollectRootsComplete | src/main.rs:345-350 | the walk over all roots finds a path exactly when one of the roots' trees holds it |
| Catalog.Add | src/main.rs:371-373 | a parse appends one row with the name and sets that name's command, leaving every other name's command as it was |
| Catalog.BuildRows | src/main.rs:355-373 | the rows are the names of the parsed entries, in order |
| Catalog.BuildConsistent | src/main.rs:355-373 | the command map has exactly the shown names as keys |
| Catalog.BuildLastWins | src/main.rs:371 | a name runs the command of the last entry carrying it |
| Catalog.BuildContents | src/main.rs:355-375 | rows in entry order, map keys equal to the shown names, last entry wins for a duplicated name |
| Catalog.ParsedSource | src/main.rs:355-356 | every entry comes from a collected path that parses to it |
| Catalog.ParsedStep | src/main.rs:355-356 | a path that parses contributes its entry at the end; one that does not contributes nothing |
| Catalog.ParsedComplete | src/main.rs:355-356 | every collected path whose file parses has its entry in the parsed list |
| Catalog.Load | src/main.rs:352-375 | map and rows agree, and there are no more rows than collected paths |
| Catalog.LoadContents | src/main.rs:352-375 | paths are parsed in strictly increasing order, each once; the rows are the successful parses' names and each name runs the last such file's command |
| Catalog.InitialSelection | src/main.rs:396-398 | after loading, row 0 is selected exactly when the list is non-empty |
| Catalog.Startup | src/main.rs:341-375 | the catalog built at start-up has a command for every row and a row for every command |
| Query.Initial | src/main.rs:396-398 | the window starts with the loaded rows, no filter so every row shows, and row 0 selected exactly when there is a row |
| Query.StartupEnterLaunches | src/main.rs:170-185 | Enter right after start-up launches the first application's command, which the map always holds |
| MathEval.I64LiteralChars | src/main.rs:55 | an `i64` literal holds no '.', '/' or whitespace |
| MathEval.Decimalize | src/main.rs:55-59 | an `i64` literal without '.' gets ".0"; any other token passes through unchanged |
| MathEval.DecimalizeIdempotent | src/main.rs:55-59 | a rewritten token no longer parses as an `i64`, so rewriting a token twice is rewriting it once |
| MathEval.DecimalizeAll | src/main.rs:54-60 | the tokens are rewritten one by one, in order, none added or dropped |
| MathEval.Preprocess | src/main.rs:53-63 | a query without '/' is passed on unchanged |
| MathEval.Evaluate | src/main.rs:52-69 | without '/', the library sees the query exactly as typed |
| MathEval.SpaceSlash | src/main.rs:54 | spacing out the '/' of `a/b` gives `a / b` |
| MathEval.SplitDivision | src/main.rs:54 | `a / b` splits into the tokens `a`, `/`, `b` |
| MathEval.DivisionTokens | src/main.rs:54-59 | the tokens of a quotient after decimalizing are the two decimalized operands around '/' |
| MathEval.CollapseSlash | src/main.rs:60 | joining `x`, `/`, `y` with spaces and collapsing " / " gives `x/y` |
| MathEval.PreprocessDivision | src/main.rs:53-63 | a quotient of two tokens reaches the library as the two decimalized tokens around a bare '/' |
| MathEval.PreprocessDivisionStable | src/main.rs:53-63 | preprocessing such a quotient again changes nothing, so no token gets ".0" twice |
| MathEval.DigitOverDigit | src/main.rs:53-63 | a one-digit quotient such as `7/2` is sent as `7.0/2.0` |
| MathEval.OutOfRangeKept | src/main.rs:55 | a digit string beyond the 64-bit range is not decimalized |
| Query.MathLabel | src/main.rs:91 | the calculator row's label is recognised as a calculator row |
| Query.RemoveFirst | src/main.rs:228 | removing row 0 drops it; the selection moves up by exactly one index, or is cleared when row 0 was selected |
| Query.Prepend | src/main.rs:245 | prepending adds a row on top; the selection moves down by exactly one index, and nothing becomes selected |
| Query.MathRun | src/main.rs:223-234 | the leading run of calculator rows ends at the first row that is not one |
| Query.StripMath | src/main.rs:223-234 | what goes is a run of calculator rows at the front; what stays does not start with one; a selected row that stays stays selected, its index reduced by the number of rows removed |
| Query.FirstVisible | src/main.rs:266-285 | the scan returns the first shown row from its start, or nothing when none is shown |
| Query.SelectFirstVisible | src/main.rs:266-285 | the first shown row is selected; with none shown the state is unchanged |
| Query.OnChanged | src/main.rs:220-287 | the filter is unset exactly for an empty query, and otherwise is the lower-cased query |
| Query.OnChangedIgnoresCase | src/main.rs:221 | typing a query in capitals gives the same rows, selection and filter as typing it in small letters |
| Query.OnChangedRows | src/main.rs:223-248 | the new rows are the old ones minus leading calculator rows, with one calculator row on top exactly when the query is non-empty and evaluates |
| Query.OnChangedNoStaleMath | src/main.rs:223-248 | a calculator row on top is the present query's, and the row below it is not a calculator row |
| Query.OnChangedEmpty | src/main.rs:236-241 | an empty query shows every row and selects row 0 when there is one |
| Query.OnChangedSelects | src/main.rs:252-285 | a non-empty query selects the first row that is a calculator row or whose lower-cased label holds the lower-cased query |
| Query.OnChangedKeepsSelection | src/main.rs:266-285 | when no row qualifies, the rows are the old ones minus their leading calculator rows, and the selection stays on the previously selected row if it survived (its index shifted by the rows removed) and is empty otherwise |
| Query.OnChangedSelectsResult | src/main.rs:243-285 | when the query evaluates, its calculator row is on top and selected |
| Query.AppNamedLikeMathIsRemoved | src/main.rs:223-248 | an application whose name holds " = " is taken for a calculator row; standing first, it is dropped by any next change of the query, leaving the rest of the list, under a new calculator row when the query evaluates |
| Query.CommitRow | src/main.rs:176-185 | a calculator row copies the last piece of its label split at " = " (a suffix holding no " = "); any other row launches its command exactly when its name is in the map |
| Query.Activate | src/main.rs:377-394 | activating a row copies exactly when it is a calculator row, and launches only a command the map holds for its name |
| Query.Commit | src/main.rs:170-213 | Enter commits the selected row; with none, it copies the raw text's result, or else selects and commits row 0 of the whole list; rows and filter are untouched |
| Query.MathRowCopiesResult | src/main.rs:176-179 | committing the calculator row for a query copies exactly the result, when the result holds no " = " and the query does not end in " =" |
| Query.EnterCopiesResult | src/main.rs:170-179 | typing an expression that evaluates and pressing Enter copies its result, when the result holds no " = " and the lower-cased query does not end in " =" |
| Query.Down | src/main.rs:303-317 | Down moves to the next row if there is one and otherwise stays; with nothing selected it selects row 0 of a non-empty list |
| Query.Up | src/main.rs:318-329 | Up moves to the previous row; at row 0 or with nothing selected nothing happens |
| Query.UpUndoesDown | src/main.rs:303-329 | Up undoes a Down that moved |
| Query.DownUndoesUp | src/main.rs:303-329 | Down undoes an Up that moved |
| Query.DownsReachBottom | src/main.rs:303-317 | enough Downs reach the last row and stay there; the selection never wraps |
| Query.UpsReachTop | src/main.rs:318-329 | enough Ups reach row 0 and stay there |

## Where the code departs from its description

The model follows the code in each case:

- **Lower-casing in `connect_changed`.** The handler evaluates and labels the
  lower-cased query (src/main.rs:221, 243-244), not the text as typed. Enter
  with nothing selected evaluates the raw text instead (src/main.rs:189).
- **`NoDisplay` and `Hidden` flags.** These are sticky: any line saying
  "true" raises the flag, and a later "false" line does not lower it
  (src/main.rs:433-442).
- **The idle selection scan.** When no row qualifies, the scan leaves the
  selection where it was; it does not clear it (src/main.rs:266-285).
- **Enter with nothing selected.** If the text does not evaluate, Enter
  commits row 0 of the whole list, even when the filter hides that row
  (src/main.rs:193).
- **Cleaning `Exec`.** The cleaner is not idempotent, and it does not remove
  every field code (`ExecCommand.CleanNotIdempotent`).
- **`lines()`.** This follows the current Rust library: a '\r' is dropped
  only together with the '\n' after it. A final line ending in a bare '\r'
  keeps that '\r'.

## Left out

- GTK widget construction, icon lookup, the clipboard and closing the
  window: GUI side effects. A commit's effect is reported as an `Outcome`
  instead.
- The Escape key handler (src/main.rs:289-298): it only closes the window.
- `scroll_to_selected` (src/main.rs:30-50): floating-point scroll geometry
  with no effect on the rows or the selection.
- The `tokio` tasks and `Command::spawn` (src/main.rs:465-477): concurrency
  and process creation. Only the argument vector is modelled.
- Errors logged by the launch: logging only.
- `fs::read_dir`, `fs::read_to_string`, `is_file`/`is_dir` and XDG directory
  lookup (src/main.rs:342-350, 402-407, 415): file-system I/O. They are
  inputs: a tree per data directory, and a map from path to text.
- The panic of `get_data_home().unwrap()` when no home directory exists
  (src/main.rs:346).
- Symbolic-link cycles in the tree walk: a finite tree cannot express them.
- Invalid UTF-8 in a file: it is a failed read.
- `evalexpr::eval` and the formatting of its value (src/main.rs:65-68): a
  foreign library with floating-point semantics, represented by the `eval`
  parameter.
- The `math_results` vector (src/main.rs:246-247): it is written but never
  read, so it has no effect.
- The asynchrony of the idle callback (src/main.rs:266): the scan is taken to
  run right after the filter is set, before any other event.
- The widget tree around a label (`child`, `last_child`, downcasts): every
  row is taken to hold a label.
- src/logger.rs and src/config.rs: output and window/CSS set-up, outside the
  launcher's logic.
- Strings.Lower: lower-cases ASCII letters only, because Unicode case mapping
  tables are out of scope; non-ASCII capitals in a query or an application
  name are not folded.
- Query.EnterCopiesResult: holds only when the result holds no " = " and the
  lower-cased query does not end in " =", for the reason given for
  Query.MathRowCopiesResult next.
- Query.MathRowCopiesResult: assumes the result holds no " = " and the query
  does not end in " =". Outside those cases, the last piece of the label is
  not the result.
- Byte-wise comparison of non-UTF-8 path components: components are text
  here and are compared by code point, which is the byte order for UTF-8.
- Normalisation done by `Path::components`: a path is already its list of
  components. A data directory written with interior `.` components or
  repeated separators keeps them here, while `components()` drops them; the
  root and a leading `./` (`Component::RootDir`, `Component::CurDir`) are not
  represented. Entry names returned by `fs::read_dir` are never `.` or `..`,
  so this only matters for unusually spelled data directories.
- The standard library's sorting algorithm: the model sorts by insertion.
  By `Paths.SortedIsUnique`, every sort of the same paths gives the same list.

=== FILE: catalog.dfy ===
/**
 * Building the application list (`load_desktop_entries`): the collected
 * paths are sorted and deduplicated, each is parsed in that order, and every
 * successful parse appends a row labelled with the application's name and
 * records `name -> exec` in the command map, a later file overwriting an
 * earlier one of the same name.
 */
module Catalog {
  import opened Wrappers
  import opened Strings
  import opened Paths
  import opened Discovery
  import DesktopEntry

  /** The row labels in list order, and the command map behind them. */
  datatype Catalog = Catalog(rows: seq<String>, commands: map<String, String>)

  const Empty: Catalog := Catalog([], map[])

  /** Every row has a command and every command has a row. */
  ghost predicate Consistent(c: Catalog) {
    forall name :: name in c.commands <==> name in c.rows
  }

  /** One successful parse: a new row at the end, and the map entry for its name set. */
  function Add(c: Catalog, e: DesktopEntry.Entry): (r: Catalog)
    ensures r.rows == c.rows + [e.name]
    ensures r.commands.Keys == c.commands.Keys + {e.name}
    ensures r.commands[e.name] == e.exec
    ensures forall n :: n in c.commands && n != e.name ==> r.commands[n] == c.commands[n]
  {
    Catalog(c.rows + [e.name], c.commands[e.name := e.exec])
  }

  /** The entries, added one after another in list order. */
  function Build(entries: seq<DesktopEntry.Entry>): (r: Catalog)
    decreases |entries|
  {
    if |entries| == 0 then Empty
    else Add(Build(entries[..|entries| - 1]), entries[|entries| - 1])
  }

  /** The names of the entries, in order. */
  function Names(entries: seq<DesktopEntry.Entry>): (r: seq<String>)
    ensures |r| == |entries|
    ensures forall i :: 0 <= i < |entries| ==> r[i] == entries[i].name
  {
    seq(|entries|, i requires 0 <= i < |entries| => entries[i].name)
  }

  /** Entry `i` is the last one carrying its name. */
  predicate LastOfName(entries: seq<DesktopEntry.Entry>, i: int)
    requires 0 <= i < |entries|
  {
    forall j :: i < j < |entries| ==> entries[j].name != entries[i].name
  }

  /** The list shows one row per entry, in order. */
  lemma {:induction false} BuildRows(entries: seq<DesktopEntry.Entry>)
    ensures Build(entries).rows == Names(entries)
    decreases |entries|
  {
    if |entries| > 0 {
      var n := |entries| - 1;
      BuildRows(entries[..n]);
      assert Names(entries) == Names(entries[..n]) + [entries[n].name];
    }
  }

  /** The map has exactly the shown names as keys. */
  lemma {:induction false} BuildConsistent(entries: seq<DesktopEntry.Entry>)
    ensures Consistent(Build(entries))
    decreases |entries|
  {
    if |entries| > 0 {
      BuildConsistent(entries[..|entries| - 1]);
    }
  }

  /** Each name runs the command of the last entry that carries it. */
  lemma {:induction false} BuildLastWins(entries: seq<DesktopEntry.Entry>, i: nat)
    requires i < |entries| && LastOfName(entries, i)
    ensures entries[i].name in Build(entries).commands
    ensures Build(entries).commands[entries[i].name] == entries[i].exec
    decreases |entries|
  {
    var n := |entries| - 1;
    if i < n {
      var init := entries[..n];
      assert init[i] == entries[i];
      assert LastOfName(init, i);
      BuildLastWins(init, i);
      assert entries[n].name != entries[i].name;
    }
  }

  /**
   * The list shows one row per entry, in order; the map has exactly the
   * shown names as keys; and each name runs the command of the last entry
   * that carries it.
   */
  lemma BuildContents(entries: seq<DesktopEntry.Entry>)
    ensures Build(entries).rows == Names(entries)
    ensures Consistent(Build(entries))
    ensures forall i :: 0 <= i < |entries| && LastOfName(entries, i) ==>
              Build(entries).commands[entries[i].name] == entries[i].exec
  {
    BuildRows(entries);
    BuildConsistent(entries);
    forall i | 0 <= i < |entries| && LastOfName(entries, i)
      ensures Build(entries).commands[entries[i].name] == entries[i].exec
    {
      BuildLastWins(entries, i);
    }
  }

  /** The file a path names, when it can be read. */
  function Read(files: map<Path, String>, p: Path): Option<String> {
    if p in files then Some(files[p]) else None
  }

  /** The successful parses among `paths`, in order. */
  function Parsed(paths: seq<Path>, files: map<Path, String>): (r: seq<DesktopEntry.Entry>)
    ensures |r| <= |paths|
    decreases |paths|
  {
    if |paths| == 0 then []
    else
      var init := Parsed(paths[..|paths| - 1], files);
      match DesktopEntry.Parse(Read(files, paths[|paths| - 1]))
      case Some(e) => init + [e]
      case None => init
  }

  /** Every entry comes from a path among `paths` that parses to it. */
  lemma {:induction false} ParsedSource(paths: seq<Path>, files: map<Path, String>, k: nat) returns (i: nat)
    requires k < |Parsed(paths, files)|
    ensures i < |paths| && DesktopEntry.Parse(Read(files, paths[i])) == Some(Parsed(paths, files)[k])
    decreases |paths|
  {
    var n := |paths| - 1;
    var init := Parsed(paths[..n], files);
    if k < |init| {
      i := ParsedSource(paths[..n], files, k);
      assert paths[..n][i] == paths[i];
    } else {
      i := n;
    }
  }

  /** A path that parses contributes its entry; one that does not contributes nothing. */
  lemma ParsedStep(paths: seq<Path>, p: Path, files: map<Path, String>)
    ensures DesktopEntry.Parse(Read(files, p)).Some? ==>
              Parsed(paths + [p], files) == Parsed(paths, files) + [DesktopEntry.Parse(Read(files, p)).value]
    ensures DesktopEntry.Parse(Read(files, p)).None? ==>
              Parsed(paths + [p], files) == Parsed(paths, files)
  {
    assert (paths + [p])[..|paths|] == paths;
  }

  /** Every path whose file parses contributes its entry: nothing that parses is lost. */
  lemma {:induction false} ParsedComplete(paths: seq<Path>, files: map<Path, String>, i: nat)
    requires i < |paths| && DesktopEntry.Parse(Read(files, paths[i])).Some?
    ensures DesktopEntry.Parse(Read(files, paths[i])).value in Parsed(paths, files)
    decreases |paths|
  {
    var n := |paths| - 1;
    assert paths == paths[..n] + [paths[n]];
    ParsedStep(paths[..n], paths[n], files);
    if i < n {
      assert paths[..n][i] == paths[i];
      ParsedComplete(paths[..n], files, i);
    }
  }

  /** `load_desktop_entries` over an already collected list of paths. */
  function Load(collected: seq<Path>, files: map<Path, String>): (r: Catalog)
    ensures Consistent(r)
    ensures |r.rows| <= |collected|
  {
    var ordered := SortDedup(collected);
    var entries := Parsed(ordered, files);
    BuildContents(entries);
    assert forall x :: x in multiset(ordered) ==> x in collected;
    DistinctLength(ordered, collected);
    Build(entries)
  }

  /** A duplicate-free list drawn from `s` is no longer than `s`. */
  lemma DistinctLength(d: seq<Path>, s: seq<Path>)
    requires Increasing(d)
    requires forall x :: x in d ==> x in s
    ensures |d| <= |s|
  {
    IncreasingDistinct(d);
    var ds := set x | x in d;
    var ss := set x | x in s;
    assert ss == ds + (ss - ds);
    assert ds * (ss - ds) == {};
    DistinctCard(d);
    SetOfSeqCard(s);
  }

  lemma {:induction false} DistinctCard(d: seq<Path>)
    requires forall i, j :: 0 <= i < j < |d| ==> d[i] != d[j]
    ensures |set x | x in d| == |d|
    decreases |d|
  {
    if |d| > 0 {
      var t := d[1..];
      DistinctCard(t);
      assert (set x | x in d) == (set x | x in t) + {d[0]};
      assert d[0] !in t;
    }
  }

  lemma {:induction false} SetOfSeqCard(s: seq<Path>)
    ensures |set x | x in s| <= |s|
    decreases |s|
  {
    if |s| > 0 {
      SetOfSeqCard(s[1..]);
      assert (set x | x in s) == (set x | x in s[1..]) + {s[0]};
    }
  }

  /**
   * The list is the names of the files that parse, taken in increasing path
   * order with each path once; every name launches the command of the last
   * such file carrying it.
   */
  lemma LoadContents(collected: seq<Path>, files: map<Path, String>)
    ensures var ordered := SortDedup(collected);
      var entries := Parsed(ordered, files);
      && Increasing(ordered)
      && (forall p :: p in ordered <==> p in collected)
      && Load(collected, files).rows == Names(entries)
      && (forall i :: 0 <= i < |entries| && LastOfName(entries, i) ==>
            Load(collected, files).commands[entries[i].name] == entries[i].exec)
  {
    BuildContents(Parsed(SortDedup(collected), files));
  }

  /**
   * After loading, row 0 is selected when there is one (`row_at_index(0)` at
   * the end of `load_desktop_entries`).
   */
  function InitialSelection(c: Catalog): (r: Option<nat>)
    ensures r.Some? <==> |c.rows| > 0
    ensures r.Some? ==> r.value == 0
  {
    if |c.rows| > 0 then Some(0) else None
  }

  /** The whole start-up: walk every root, then load what was found. */
  function Startup(roots: seq<(Path, Option<seq<Node>>)>, files: map<Path, String>): (r: Catalog)
    ensures Consistent(r)
  {
    Load(CollectRoots(roots), files)
  }
}

=== FILE: desktop_entry.dfy ===
/**
 * Reading one `.desktop` file (`parse_desktop_file`): a single pass over its
 * lines keeps the first `Name=`, `Icon=`, `Exec=` and `Type=` values, raises
 * the `NoDisplay` and `Hidden` flags on any line saying "true" in any case,
 * and then accepts the file only if it is a visible application with a name,
 * an icon and a command.
 */
module DesktopEntry {
  import opened Wrappers
  import opened Strings

  /** What a successful parse yields: the application's name, icon name and `Exec` template. */
  datatype Entry = Entry(name: String, icon: String, exec: String)

  /** The parser's local variables while it walks the lines. */
  datatype Scan = Scan(
    name: Option<String>,
    icon: Option<String>,
    exec: Option<String>,
    noDisplay: bool,
    hidden: bool,
    appType: Option<String>)

  const Start: Scan := Scan(None, None, None, false, false, None)

  const NameKey: String := "Name="
  const IconKey: String := "Icon="
  const ExecKey: String := "Exec="
  const TypeKey: String := "Type="
  const NoDisplayKey: String := "NoDisplay="
  const HiddenKey: String := "Hidden="

  /** The value on a `key` line: every leading repetition of `key` is stripped. */
  function ValueOf(line: String, key: String): (v: String)
    requires |key| > 0
    ensures EndsWith(line, v) && !StartsWith(v, key)
    ensures exists n: nat :: line == Repeat(key, n) + v
  {
    TrimStartMatches(line, key)
  }

  /** A slot that keeps the first value it is offered. */
  function KeepFirst(slot: Option<String>, line: String, key: String): (r: Option<String>)
    requires |key| > 0
    ensures slot.Some? ==> r == slot
    ensures slot.None? && StartsWith(line, key) ==> r == Some(ValueOf(line, key))
    ensures slot.None? && !StartsWith(line, key) ==> r.None?
  {
    if StartsWith(line, key) && slot.None? then Some(ValueOf(line, key)) else slot
  }

  /** A `key` line whose value reads "true" once ASCII letters are lower-cased. */
  predicate SaysTrue(line: String, key: String)
    requires |key| > 0
  {
    StartsWith(line, key) && Lower(ValueOf(line, key)) == "true"
  }

  /** The effect of one line on the parser's variables. */
  function Step(st: Scan, line: String): (r: Scan)
    ensures st.noDisplay ==> r.noDisplay
    ensures st.hidden ==> r.hidden
  {
    Scan(
      KeepFirst(st.name, line, NameKey),
      KeepFirst(st.icon, line, IconKey),
      KeepFirst(st.exec, line, ExecKey),
      st.noDisplay || SaysTrue(line, NoDisplayKey),
      st.hidden || SaysTrue(line, HiddenKey),
      KeepFirst(st.appType, line, TypeKey))
  }

  /** The loop over the lines, in file order. */
  function ScanLines(st: Scan, lines: seq<String>): (r: Scan)
    ensures st.noDisplay ==> r.noDisplay
    ensures st.hidden ==> r.hidden
    decreases |lines|
  {
    if |lines| == 0 then st else ScanLines(Step(st, lines[0]), lines[1..])
  }

  /** The checks after the loop, in the order the parser makes them. */
  function Decide(st: Scan): (r: Option<Entry>)
    ensures r.Some? <==>
      !st.noDisplay && !st.hidden && st.appType == Some("Application")
      && st.name.Some? && st.icon.Some? && st.exec.Some?
    ensures r.Some? ==> r.value == Entry(st.name.value, st.icon.value, st.exec.value)
  {
    if st.noDisplay || st.hidden then None
    else if st.appType != Some("Application") then None
    else
      match (st.name, st.icon, st.exec)
      case (Some(n), Some(i), Some(e)) => Some(Entry(n, i, e))
      case _ => None
  }

  /**
   * `parse_desktop_file`; `content` is the file's text, `None` when reading
   * it failed (missing, unreadable or not UTF-8).
   */
  function Parse(content: Option<String>): (r: Option<Entry>)
    ensures content.None? ==> r.None?
  {
    match content
    case None => None
    case Some(text) => Decide(ScanLines(Start, Lines(text)))
  }

  // ---------------------------------------------------------------------------
  // Reference definitions: what each variable ends up holding, stated per key

  /** Index of the first line that starts with `key`. */
  function FirstLine(lines: seq<String>, key: String): (r: Option<nat>)
    ensures r.None? <==> forall i :: 0 <= i < |lines| ==> !StartsWith(lines[i], key)
    ensures r.Some? ==> r.value < |lines| && StartsWith(lines[r.value], key)
    ensures r.Some? ==> forall i :: 0 <= i < r.value ==> !StartsWith(lines[i], key)
    decreases |lines|
  {
    if |lines| == 0 then None
    else if StartsWith(lines[0], key) then Some(0)
    else
      match FirstLine(lines[1..], key)
      case None => None
      case Some(i) => Some(i + 1)
  }

  /** The value of the first `key` line, if any. */
  function FirstValue(lines: seq<String>, key: String): Option<String>
    requires |key| > 0
  {
    match FirstLine(lines, key)
    case None => None
    case Some(i) => Some(ValueOf(lines[i], key))
  }

  /** Some `key` line says "true". */
  predicate Flagged(lines: seq<String>, key: String)
    requires |key| > 0
  {
    exists i :: 0 <= i < |lines| && SaysTrue(lines[i], key)
  }

  /** Once a slot holds a value, later lines never change it; until then it takes the first match. */
  lemma {:induction false} ScanSlot(slot: Option<String>, lines: seq<String>, key: String)
    requires |key| > 0
    ensures SlotAfter(slot, lines, key) == if slot.Some? then slot else FirstValue(lines, key)
    decreases |lines|
  {
    if |lines| > 0 {
      ScanSlot(KeepFirst(slot, lines[0], key), lines[1..], key);
      if slot.None? && !StartsWith(lines[0], key) {
        FirstLineTail(lines, key);
      }
    }
  }

  /** A single slot driven through the lines on its own. */
  function SlotAfter(slot: Option<String>, lines: seq<String>, key: String): Option<String>
    requires |key| > 0
    decreases |lines|
  {
    if |lines| == 0 then slot else SlotAfter(KeepFirst(slot, lines[0], key), lines[1..], key)
  }

  lemma FirstLineTail(lines: seq<String>, key: String)
    requires |key| > 0 && |lines| > 0 && !StartsWith(lines[0], key)
    ensures FirstValue(lines, key) == FirstValue(lines[1..], key)
  {
  }

  /** A flag, once raised, stays raised; otherwise it is raised by the first "true" line. */
  lemma {:induction false} ScanFlag(flag: bool, lines: seq<String>, key: String)
    requires |key| > 0
    ensures FlagAfter(flag, lines, key) == (flag || Flagged(lines, key))
    decreases |lines|
  {
    if |lines| > 0 {
      ScanFlag(flag || SaysTrue(lines[0], key), lines[1..], key);
      if Flagged(lines, key) && !SaysTrue(lines[0], key) {
        var i :| 0 <= i < |lines| && SaysTrue(lines[i], key);
        assert lines[1..][i - 1] == lines[i];
      }
      if Flagged(lines[1..], key) {
        var i :| 0 <= i < |lines[1..]| && SaysTrue(lines[1..][i], key);
        assert lines[i + 1] == lines[1..][i];
      }
    }
  }

  /** A single flag driven through the lines on its own. */
  function FlagAfter(flag: bool, lines: seq<String>, key: String): bool
    requires |key| > 0
    decreases |lines|
  {
    if |lines| == 0 then flag else FlagAfter(flag || SaysTrue(lines[0], key), lines[1..], key)
  }

  /** The whole scan is the six slots and flags, each driven independently. */
  lemma {:induction false} ScanIsComponentwise(st: Scan, lines: seq<String>)
    ensures ScanLines(st, lines) == Scan(
      SlotAfter(st.name, lines, NameKey),
      SlotAfter(st.icon, lines, IconKey),
      SlotAfter(st.exec, lines, ExecKey),
      FlagAfter(st.noDisplay, lines, NoDisplayKey),
      FlagAfter(st.hidden, lines, HiddenKey),
      SlotAfter(st.appType, lines, TypeKey))
    decreases |lines|
  {
    if |lines| > 0 {
      ScanIsComponentwise(Step(st, lines[0]), lines[1..]);
    }
  }

  /** After all lines, every variable holds what the per-key reference definitions say. */
  lemma ScanMatchesReference(lines: seq<String>)
    ensures ScanLines(Start, lines) == Scan(
      FirstValue(lines, NameKey),
      FirstValue(lines, IconKey),
      FirstValue(lines, ExecKey),
      Flagged(lines, NoDisplayKey),
      Flagged(lines, HiddenKey),
      FirstValue(lines, TypeKey))
  {
    ScanIsComponentwise(Start, lines);
    ScanSlot(None, lines, NameKey);
    ScanSlot(None, lines, IconKey);
    ScanSlot(None, lines, ExecKey);
    ScanSlot(None, lines, TypeKey);
    ScanFlag(false, lines, NoDisplayKey);
    ScanFlag(false, lines, HiddenKey);
  }

  /**
   * A readable file is accepted exactly when no `NoDisplay` or `Hidden` line
   * says "true", its first `Type` is "Application", and it has `Name`, `Icon`
   * and `Exec` lines; the entry then carries the first value of each.
   */
  lemma ParseAccepts(text: String)
    ensures var lines := Lines(text);
      Parse(Some(text)).Some? <==>
        && !Flagged(lines, NoDisplayKey)
        && !Flagged(lines, HiddenKey)
        && FirstValue(lines, TypeKey) == Some("Application")
        && FirstValue(lines, NameKey).Some?
        && FirstValue(lines, IconKey).Some?
        && FirstValue(lines, ExecKey).Some?
    ensures var lines := Lines(text);
      Parse(Some(text)).Some? ==>
        Parse(Some(text)).value == Entry(
          FirstValue(lines, NameKey).value,
          FirstValue(lines, IconKey).value,
          FirstValue(lines, ExecKey).value)
  {
    ScanMatchesReference(Lines(text));
  }

  /** One `NoDisplay=true` or `Hidden=true` line rejects the file, wherever it stands. */
  lemma FlagLineRejects(text: String, i: nat)
    requires i < |Lines(text)|
    requires SaysTrue(Lines(text)[i], NoDisplayKey) || SaysTrue(Lines(text)[i], HiddenKey)
    ensures Parse(Some(text)).None?
  {
    ParseAccepts(text);
  }

  /** The value is what follows the key, provided it does not itself start with the key. */
  lemma ValueAfterKey(key: String, v: String)
    requires |key| > 0 && !StartsWith(v, key)
    ensures ValueOf(key + v, key) == v
  {
    assert (key + v)[..|key|] == key;
    assert (key + v)[|key|..] == v;
    assert TrimStartMatches(key + v, key) == TrimStartMatches(v, key);
  }

  /**
   * A repeated key is stripped as well: `Name=Name=X` gives the name `X`,
   * not `Name=X`.
   */
  lemma ValueStripsRepeatedKey(key: String, v: String)
    requires |key| > 0 && !StartsWith(v, key)
    ensures ValueOf(key + key + v, key) == v
  {
    var s := key + key + v;
    assert s[..|key|] == key;
    assert s[|key|..] == key + v;
    assert StartsWith(s, key);
    assert TrimStartMatches(s, key) == TrimStartMatches(key + v, key);
    ValueAfterKey(key, v);
  }
}

=== FILE: discovery.dfy ===
/**
 * Finding `.desktop` files (`collect_desktop_files`): a depth-first walk of a
 * directory tree that keeps every regular file whose extension is exactly
 * `desktop` and descends into every directory, in the order the directory
 * listings return their entries. The file system is given as a tree, since
 * the walk only ever reads listings and asks whether an entry is a file or a
 * directory.
 */
module Discovery {
  import opened Wrappers
  import opened Strings
  import opened Paths

  /**
   * An entry of a directory listing, classified as `is_file` / `is_dir` would
   * (both follow symbolic links). A directory is `readable` unless `read_dir`
   * fails on it, and then its `entries` are never looked at. `Other` is
   * neither a file nor a directory: a socket, a dangling link.
   */
  datatype Node =
    | File(name: String)
    | Dir(name: String, readable: bool, entries: seq<Node>)
    | Other(name: String)

  /**
   * `Path::extension` of a file name: the text after the last '.', except
   * that a name with no '.', a name whose only '.' is its first character,
   * and the name ".." have none.
   */
  function Extension(name: String): (r: Option<String>)
    ensures r.Some? ==> EndsWith(name, r.value) && '.' !in r.value
  {
    var k := LastStart(name, ".", 0);
    LastStartIsClear(name, ".", 0);
    if name == ".." || k <= 1 then None
    else
      assert '.' !in name[k..] by {
        forall j | k <= j < |name| ensures name[j] != '.' {
          OccursAtChar(name, '.', j);
        }
      }
      Some(name[k..])
  }

  /** The discovery filter: the extension is exactly "desktop". */
  predicate IsDesktopName(name: String) {
    Extension(name) == Some("desktop")
  }

  /**
   * The filter in plain terms: the name ends in ".desktop" and has at least
   * one character before that suffix (so ".desktop" itself is not taken).
   */
  lemma DesktopNameIff(name: String)
    ensures IsDesktopName(name) <==> EndsWith(name, ".desktop") && |name| > 8
  {
    if IsDesktopName(name) {
      DesktopNameHasSuffix(name);
    }
    if EndsWith(name, ".desktop") && |name| > 8 {
      SuffixMakesDesktopName(name);
    }
  }

  lemma DesktopNameHasSuffix(name: String)
    requires IsDesktopName(name)
    ensures EndsWith(name, ".desktop") && |name| > 8
  {
    var k := LastStart(name, ".", 0);
    OccursAtChar(name, '.', k - 1);
    assert name[|name| - 8..] == [name[k - 1]] + name[k..];
  }

  lemma SuffixMakesDesktopName(name: String)
    requires EndsWith(name, ".desktop") && |name| > 8
    ensures IsDesktopName(name)
  {
    var d := |name| - 8;
    FinalDot(name, "desktop");
    LastStartReaches(name, ".", 0, d);
    LastStartAtEnd(name, ".", d + 1);
    assert LastStart(name, ".", 0) == d + 1;
    assert name[d + 1..] == name[d..][1..] == "desktop";
    assert name != "..";
  }

  /** In a name ending in '.' and then `ext`, with no '.' in `ext`, that '.' is the last one. */
  lemma FinalDot(name: String, ext: String)
    requires EndsWith(name, "." + ext) && '.' !in ext
    ensures OccursAt(name, ".", |name| - |ext| - 1)
    ensures forall j :: |name| - |ext| <= j ==> !OccursAt(name, ".", j)
  {
    var d := |name| - |ext| - 1;
    assert name[d] == ("." + ext)[0];
    OccursAtChar(name, '.', d);
    forall j | |name| - |ext| <= j ensures !OccursAt(name, ".", j) {
      if j < |name| {
        OccursAtChar(name, '.', j);
        assert name[j] == ext[j - d - 1];
      }
    }
  }

  /** The walk of one directory: its listing's entries in order, nothing if it cannot be read. */
  function CollectDir(dir: Path, listing: Option<seq<Node>>): (r: seq<Path>)
    ensures forall k :: 0 <= k < |r| ==> Below(dir, r[k]) && IsDesktopName(Last(r[k]))
  {
    match listing
    case None => []
    case Some(entries) => CollectEntries(dir, entries)
  }

  /** The entries of one listing in order, each searched completely before the next. */
  function CollectEntries(dir: Path, entries: seq<Node>): (r: seq<Path>)
    ensures forall k :: 0 <= k < |r| ==> Below(dir, r[k]) && IsDesktopName(Last(r[k]))
    decreases entries, 1
  {
    if |entries| == 0 then []
    else CollectFirst(dir, entries) + CollectEntries(dir, entries[1..])
  }

  /** The first entry: a desktop file is taken, a readable directory is searched, anything else is skipped. */
  function CollectFirst(dir: Path, entries: seq<Node>): (r: seq<Path>)
    requires |entries| > 0
    ensures forall k :: 0 <= k < |r| ==> Below(dir, r[k]) && IsDesktopName(Last(r[k]))
    decreases entries, 0
  {
    match entries[0]
    case File(n) => if IsDesktopName(n) then [dir + [n]] else []
    case Dir(n, readable, sub) =>
      if readable then
        var found := CollectEntries(dir + [n], sub);
        BelowChild(dir, n, found);
        found
      else []
    case Other(_) => []
  }

  lemma BelowChild(dir: Path, n: String, found: seq<Path>)
    requires forall k :: 0 <= k < |found| ==> Below(dir + [n], found[k])
    ensures forall k :: 0 <= k < |found| ==> Below(dir, found[k])
  {
    forall k | 0 <= k < |found| ensures Below(dir, found[k]) {
      assert found[k][..|dir|] == (dir + [n])[..|dir|];
    }
  }

  /** `p` lies strictly beneath `dir`. */
  predicate Below(dir: Path, p: Path) {
    |p| > |dir| && p[..|dir|] == dir
  }

  function Last(p: Path): String
    requires |p| > 0
  {
    p[|p| - 1]
  }

  // ---------------------------------------------------------------------------
  // Reference: which paths the walk reaches, regardless of order

  /** `p` names a desktop file somewhere in `entries`, listed under `dir`. */
  predicate FoundIn(dir: Path, entries: seq<Node>, p: Path)
    decreases entries, 1
  {
    exists i :: 0 <= i < |entries| && FoundAt(dir, entries, i, p)
  }

  /** `p` is the `i`-th entry itself, or is found inside it. */
  predicate FoundAt(dir: Path, entries: seq<Node>, i: int, p: Path)
    requires 0 <= i < |entries|
    decreases entries, 0
  {
    match entries[i]
    case File(n) => IsDesktopName(n) && p == dir + [n]
    case Dir(n, readable, sub) => readable && FoundIn(dir + [n], sub, p)
    case Other(_) => false
  }

  lemma FoundInWitness(dir: Path, entries: seq<Node>, p: Path)
    requires FoundIn(dir, entries, p)
    ensures exists i :: 0 <= i < |entries| && FoundAt(dir, entries, i, p)
  {
  }

  lemma FoundAtShift(dir: Path, entries: seq<Node>, i: nat, p: Path)
    requires i + 1 < |entries|
    ensures FoundAt(dir, entries[1..], i, p) == FoundAt(dir, entries, i + 1, p)
  {
    assert entries[1..][i] == entries[i + 1];
  }

  lemma {:induction false} FoundInFirstOrRest(dir: Path, entries: seq<Node>, p: Path)
    requires |entries| > 0
    ensures FoundIn(dir, entries, p) <==> FoundAt(dir, entries, 0, p) || FoundIn(dir, entries[1..], p)
  {
    var rest := entries[1..];
    if FoundIn(dir, entries, p) && !FoundAt(dir, entries, 0, p) {
      FoundInWitness(dir, entries, p);
      var i :| 0 <= i < |entries| && FoundAt(dir, entries, i, p);
      FoundAtShift(dir, entries, i - 1, p);
    }
    if FoundIn(dir, rest, p) {
      FoundInWitness(dir, rest, p);
      var i :| 0 <= i < |rest| && FoundAt(dir, rest, i, p);
      FoundAtShift(dir, entries, i, p);
    }
  }

  /** The walk finds exactly the desktop files reachable through readable directories. */
  lemma {:induction false} CollectEntriesComplete(dir: Path, entries: seq<Node>, p: Path)
    ensures p in CollectEntries(dir, entries) <==> FoundIn(dir, entries, p)
    decreases entries, 1
  {
    if |entries| > 0 {
      CollectFirstComplete(dir, entries, p);
      CollectEntriesComplete(dir, entries[1..], p);
      FoundInFirstOrRest(dir, entries, p);
    }
  }

  lemma {:induction false} CollectFirstComplete(dir: Path, entries: seq<Node>, p: Path)
    requires |entries| > 0
    ensures p in CollectFirst(dir, entries) <==> FoundAt(dir, entries, 0, p)
    decreases entries, 0
  {
    match entries[0]
    case File(n) =>
    case Dir(n, readable, sub) =>
      if readable {
        CollectEntriesComplete(dir + [n], sub, p);
      }
    case Other(_) =>
  }

  /** The walk over every data directory's `applications` folder, in the order given. */
  function CollectRoots(roots: seq<(Path, Option<seq<Node>>)>): (r: seq<Path>)
    ensures forall k :: 0 <= k < |r| ==> |r[k]| > 0 && IsDesktopName(Last(r[k]))
    decreases |roots|
  {
    if |roots| == 0 then []
    else CollectDir(roots[0].0, roots[0].1) + CollectRoots(roots[1..])
  }

  /** The paths found under one root. */
  predicate FoundUnder(root: (Path, Option<seq<Node>>), p: Path) {
    root.1.Some? && FoundIn(root.0, root.1.value, p)
  }

  /** The walk over all roots finds exactly what some root's tree holds. */
  lemma {:induction false} CollectRootsComplete(roots: seq<(Path, Option<seq<Node>>)>, p: Path)
    ensures p in CollectRoots(roots) <==> exists i :: 0 <= i < |roots| && FoundUnder(roots[i], p)
    decreases |roots|
  {
    if |roots| > 0 {
      CollectRootsComplete(roots[1..], p);
      if roots[0].1.Some? {
        CollectEntriesComplete(roots[0].0, roots[0].1.value, p);
      }
      if exists i :: 0 <= i < |roots| && FoundUnder(roots[i], p) {
        var i :| 0 <= i < |roots| && FoundUnder(roots[i], p);
        if i > 0 {
          assert roots[1..][i - 1] == roots[i];
        }
      }
      if exists i :: 0 <= i < |roots[1..]| && FoundUnder(roots[1..][i], p) {
        var i :| 0 <= i < |roots[1..]| && FoundUnder(roots[1..][i], p);
        assert roots[i + 1] == roots[1..][i];
      }
    }
  }
}

=== FILE: exec_command.dfy ===
/**
 * Preparing a desktop entry's `Exec` template for launch: the field-code
 * cleaner (`clean_exec_command`) and the argument vector that
 * `launch_application` hands to the process spawner.
 */
module ExecCommand {
  import opened Wrappers
  import opened Strings

  /** The field codes the launcher deletes, in the order it deletes them. */
  const FieldCodes: seq<String> := ["%f", "%F", "%u", "%U", "%i", "%c", "%k"]

  predicate NonEmptyPatterns(codes: seq<String>) {
    forall k :: 0 <= k < |codes| ==> |codes[k]| > 0
  }

  /** One `replace(code, "")` per code, applied in sequence. */
  function DeleteAll(s: String, codes: seq<String>): (r: String)
    requires NonEmptyPatterns(codes)
    ensures |r| <= |s|
    decreases |codes|
  {
    if |codes| == 0 then s
    else
      ReplaceFromEmptyShrinks(s, codes[0], 0);
      DeleteAll(Replace(s, codes[0], []), codes[1..])
  }

  /** `clean_exec_command`: delete the seven field codes, then trim. */
  function Clean(exec: String): (r: String)
    ensures |r| <= |exec|
    ensures r == [] || (!IsSpace(r[0]) && !IsSpace(r[|r| - 1]))
  {
    Trim(DeleteAll(exec, FieldCodes))
  }

  /** Deleting codes that all start with '%' leaves a string without '%' alone. */
  lemma {:induction false} DeleteAllWithoutPercent(s: String, codes: seq<String>)
    requires NonEmptyPatterns(codes)
    requires forall k :: 0 <= k < |codes| ==> codes[k][0] == '%'
    requires '%' !in s
    ensures DeleteAll(s, codes) == s
  {
    if |codes| > 0 {
      forall j ensures !OccursAt(s, codes[0], j) {
        AbsentFirstChar(s, codes[0], j);
      }
      assert Replace(s, codes[0], []) == s;
      DeleteAllWithoutPercent(s, codes[1..]);
    }
  }

  /** A command with no '%' at all is only trimmed. */
  lemma CleanWithoutPercent(exec: String)
    requires '%' !in exec
    ensures Clean(exec) == Trim(exec)
  {
    DeleteAllWithoutPercent(exec, FieldCodes);
  }

  /** A string with no whitespace at either end is its own trim. */
  lemma {:induction false} TrimOfTrimmed(s: String)
    requires s == [] || (!IsSpace(s[0]) && !IsSpace(s[|s| - 1]))
    ensures Trim(s) == s
  {
    assert TrimStart(s) == s;
    assert TrimEnd(s) == s;
  }

  /** Cleaning is idempotent on every result that no longer contains '%'. */
  lemma CleanIdempotentWithoutPercent(exec: String)
    requires '%' !in Clean(exec)
    ensures Clean(Clean(exec)) == Clean(exec)
  {
    CleanWithoutPercent(Clean(exec));
    TrimOfTrimmed(Clean(exec));
  }

  /** Codes that do not occur anywhere leave the text as it is. */
  lemma {:induction false} DeleteAllAbsent(s: String, codes: seq<String>)
    requires NonEmptyPatterns(codes)
    requires forall k :: 0 <= k < |codes| ==> !Contains(s, codes[k])
    ensures DeleteAll(s, codes) == s
    decreases |codes|
  {
    if |codes| > 0 {
      DeleteAllAbsent(s, codes[1..]);
    }
  }

  /** A two-character code occurs nowhere unless its characters stand side by side somewhere. */
  lemma PairAbsent(s: String, c: String)
    requires |c| == 2
    requires forall j :: 0 <= j < |s| - 1 ==> s[j] != c[0] || s[j + 1] != c[1]
    ensures !Contains(s, c)
  {
    assert c == [c[0], c[1]];
    forall j ensures !OccursAt(s, c, j) {
      OccursAtPair(s, c[0], c[1], j);
    }
  }

  /** The first deletion, of "%f", makes one step on a command; the other six follow. */
  lemma DeleteAllFieldCodes(s: String)
    ensures DeleteAll(s, FieldCodes) == DeleteAll(Replace(s, "%f", []), FieldCodes[1..])
  {
  }

  /** "%f" is not deleted by any of the six later codes. */
  lemma LaterCodesKeepPercentF()
    ensures DeleteAll("%f", FieldCodes[1..]) == "%f"
  {
    var rest := FieldCodes[1..];
    forall k | 0 <= k < |rest| ensures !Contains("%f", rest[k]) {
      PairAbsent("%f", rest[k]);
    }
    DeleteAllAbsent("%f", rest);
  }

  /** The only "%f" in "%%ff" starts at index 1; deleting it leaves "%f". */
  lemma DeletePercentFInner()
    ensures Replace("%%ff", "%f", []) == "%f"
  {
    var s := "%%ff";
    OccursAtPair(s, '%', 'f', 0);
    OccursAtPair(s, '%', 'f', 1);
    assert FindFrom(s, "%f", 0) == Some(1);
    ReplaceFromStep(s, "%f", [], 0, 1, 3);
  }

  lemma DeletePercentFWhole()
    ensures Replace("%f", "%f", []) == []
  {
    OccursAtPair("%f", '%', 'f', 0);
    assert FindFrom("%f", "%f", 0) == Some(0);
    ReplaceFromStep("%f", "%f", [], 0, 0, 2);
  }

  /**
   * Cleaning is not idempotent in general: deleting "%f" from "%%ff" joins the
   * outer '%' and 'f' into a fresh "%f", which a second cleaning deletes.
   */
  lemma CleanNotIdempotent()
    ensures Clean("%%ff") == "%f"
    ensures Clean("%f") == ""
    ensures Clean(Clean("%%ff")) != Clean("%%ff")
  {
    CleanPercentPercentFF();
    CleanPercentF();
  }

  lemma CleanPercentPercentFF()
    ensures Clean("%%ff") == "%f"
  {
    DeleteAllFieldCodes("%%ff");
    DeletePercentFInner();
    LaterCodesKeepPercentF();
    TrimOfTrimmed("%f");
  }

  lemma CleanPercentF()
    ensures Clean("%f") == ""
  {
    DeleteAllFieldCodes("%f");
    DeletePercentFWhole();
    DeleteAllAbsent([], FieldCodes[1..]);
  }

  /** The program and arguments `launch_application` would spawn. */
  datatype Argv = Argv(program: String, args: seq<String>)

  /**
   * The argument vector for an `Exec` template: the whitespace-separated
   * words of the cleaned command, the first being the program. `None` means
   * nothing is spawned.
   */
  function LaunchArgv(exec: String): (r: Option<Argv>)
    ensures r.None? <==> Clean(exec) == []
    ensures r.Some? ==> |r.value.program| > 0 && NoSpace(r.value.program)
    ensures r.Some? ==> forall k :: 0 <= k < |r.value.args| ==> |r.value.args[k]| > 0 && NoSpace(r.value.args[k])
  {
    var cleaned := Clean(exec);
    var parts := SplitWhitespace(cleaned);
    SplitWhitespaceEmpty(cleaned);
    if |parts| == 0 then None else Some(Argv(parts[0], parts[1..]))
  }

  /** A command already written as single-space-separated words, none holding '%', launches exactly those words. */
  lemma LaunchArgvOfPlainWords(words: seq<String>)
    requires |words| > 0
    requires forall k :: 0 <= k < |words| ==> |words[k]| > 0 && NoSpace(words[k]) && '%' !in words[k]
    ensures LaunchArgv(Join(words, " ")) == Some(Argv(words[0], words[1..]))
  {
    var cmd := Join(words, " ");
    assert Clean(cmd) == cmd by {
      JoinKeepsOut(words, '%');
      CleanWithoutPercent(cmd);
      JoinEnds(words);
      TrimOfTrimmed(cmd);
    }
    assert SplitWhitespace(cmd) == words by {
      SplitJoinRoundTrip(words);
    }
  }

  /** A space-join of non-empty, whitespace-free words starts and ends with a non-space. */
  lemma {:induction false} JoinEnds(words: seq<String>)
    requires |words| > 0
    requires forall k :: 0 <= k < |words| ==> |words[k]| > 0 && NoSpace(words[k])
    ensures var j := Join(words, " "); |j| > 0 && !IsSpace(j[0]) && !IsSpace(j[|j| - 1])
  {
    if |words| > 1 {
      JoinEnds(words[1..]);
      var tail := Join(words[1..], " ");
      assert Join(words, " ") == words[0] + " " + tail;
    }
  }

  /** A character absent from every word (and not a space) is absent from their space-join. */
  lemma {:induction false} JoinKeepsOut(words: seq<String>, c: char)
    requires c != ' '
    requires forall k :: 0 <= k < |words| ==> c !in words[k]
    ensures c !in Join(words, " ")
  {
    if |words| > 1 {
      JoinKeepsOut(words[1..], c);
      assert Join(words, " ") == words[0] + " " + Join(words[1..], " ");
    }
  }

  /** Deleting a code from `x + c`, where `x` holds no '%' and `c` is a two-character code. */
  lemma DeleteCodeAfterPlain(x: String, c: String, code: String)
    requires '%' !in x
    requires |c| == 2 && |code| == 2 && c[0] == '%' && code[0] == '%'
    ensures code == c ==> Replace(x + c, code, []) == x
    ensures code != c ==> Replace(x + c, code, []) == x + c
  {
    ReplaceAfterPrefix(x, c, code, []);
    if code == c {
      ReplaceLeadingMatch(c, [], []);
      assert c + [] == c;
      assert Replace([], c, []) == [];
    } else {
      assert c[1] != code[1] by {
        assert c == [c[0], c[1]] && code == [code[0], code[1]];
      }
      PairAbsent(c, code);
    }
  }

  /**
   * A plain text followed by exactly one of the codes loses the code and
   * nothing else.
   */
  lemma {:induction false} DeleteAllTrailingCode(x: String, c: String, codes: seq<String>)
    requires '%' !in x
    requires |c| == 2 && c[0] == '%' && c in codes
    requires forall k :: 0 <= k < |codes| ==> |codes[k]| == 2 && codes[k][0] == '%'
    ensures DeleteAll(x + c, codes) == x
    decreases |codes|
  {
    DeleteCodeAfterPlain(x, c, codes[0]);
    if codes[0] == c {
      DeleteAllWithoutPercent(x, codes[1..]);
    } else {
      DeleteAllTrailingCode(x, c, codes[1..]);
    }
  }

  /** A word followed by one space is trimmed back to the word. */
  lemma TrimWordSpace(w: String)
    requires |w| > 0 && NoSpace(w)
    ensures Trim(w + " ") == w
  {
    var s := w + " ";
    assert s[0] == w[0];
    assert s[..|s| - 1] == w;
    calc {
      Trim(s);
      TrimEnd(TrimStart(s));
      TrimEnd(s);
      TrimEnd(w);
      { assert !IsSpace(w[|w| - 1]); }
      w;
    }
  }

  /**
   * `launch_application("<program> %u")` and the like: a program name
   * followed by a single field code spawns the program with no arguments; the
   * code never reaches the child.
   */
  lemma LaunchArgvOfTrailingCode(w: String, c: String)
    requires |w| > 0 && NoSpace(w) && '%' !in w
    requires c in FieldCodes
    ensures LaunchArgv(w + " " + c) == Some(Argv(w, []))
  {
    DeleteAllTrailingCode(w + " ", c, FieldCodes);
    TrimWordSpace(w);
    SplitWhitespaceWord(w, []);
    assert w + [] == w;
  }
}

=== FILE: math_eval.dfy ===
/**
 * The calculator's input rewriting (`evaluate_math_expression`). When the
 * query holds a '/', every whitespace-separated token that parses as an `i64`
 * (an optional sign, decimal digits, a value in range) gets ".0" appended so
 * that the expression library divides as floating point; digit strings
 * beyond the 64-bit range are left as they are. The library itself is a
 * parameter, `eval`, standing for `evalexpr::eval` followed by formatting its
 * value.
 */
module MathEval {
  import opened Wrappers
  import opened Strings

  const MaxI64: int := 0x7FFF_FFFF_FFFF_FFFF

  predicate IsDigit(c: char) {
    '0' <= c <= '9'
  }

  predicate AllDigits(s: String) {
    forall i :: 0 <= i < |s| ==> IsDigit(s[i])
  }

  /** The number a string of decimal digits denotes. */
  function DigitsValue(s: String): (n: nat)
    requires AllDigits(s)
    decreases |s|
  {
    if |s| == 0 then 0
    else DigitsValue(s[..|s| - 1]) * 10 + (s[|s| - 1] as int - '0' as int)
  }

  /**
   * `token.parse::<i64>().is_ok()`: an optional '+' or '-', at least one
   * decimal digit and nothing else, with the value inside the 64-bit signed
   * range (one further on the negative side).
   */
  predicate IsI64Literal(t: String) {
    if |t| > 0 && (t[0] == '-' || t[0] == '+') then
      var ds := t[1..];
      |ds| > 0 && AllDigits(ds) && DigitsValue(ds) <= (if t[0] == '-' then MaxI64 + 1 else MaxI64)
    else
      |t| > 0 && AllDigits(t) && DigitsValue(t) <= MaxI64
  }

  /** An integer literal holds neither '.' nor whitespace nor '/'. */
  lemma I64LiteralChars(t: String)
    requires IsI64Literal(t)
    ensures '.' !in t && '/' !in t && NoSpace(t)
  {
    if t[0] == '-' || t[0] == '+' {
      assert forall i :: 1 <= i < |t| ==> t[i] == t[1..][i - 1];
    }
  }

  /** One token: an `i64` literal without a '.' gets ".0"; anything else is kept. */
  function Decimalize(t: String): (r: String)
    ensures IsI64Literal(t) && '.' !in t ==> r == t + ".0"
    ensures !IsI64Literal(t) ==> r == t
  {
    if IsI64Literal(t) && '.' !in t then t + ".0" else t
  }

  /** A rewritten token is no longer an `i64` literal, so rewriting twice is rewriting once. */
  lemma DecimalizeIdempotent(t: String)
    ensures IsI64Literal(t) && '.' !in t ==> !IsI64Literal(Decimalize(t))
    ensures Decimalize(Decimalize(t)) == Decimalize(t)
  {
    if IsI64Literal(t) && '.' !in t {
      var d := t + ".0";
      assert d[|t|] == '.';
      if IsI64Literal(d) {
        I64LiteralChars(d);
      }
    }
  }

  function DecimalizeAll(ts: seq<String>): (r: seq<String>)
    ensures |r| == |ts|
    ensures forall i :: 0 <= i < |ts| ==> r[i] == Decimalize(ts[i])
  {
    seq(|ts|, i requires 0 <= i < |ts| => Decimalize(ts[i]))
  }

  /** The text handed to the expression library. */
  function Preprocess(q: String): (r: String)
    ensures '/' !in q ==> r == q
  {
    if '/' !in q then q
    else
      var spaced := Replace(q, "/", " / ");
      var tokens := DecimalizeAll(SplitWhitespace(spaced));
      Replace(Join(tokens, " "), " / ", "/")
  }

  /** `evaluate_math_expression`: `None` when the library reports an error. */
  function Evaluate(q: String, eval: String -> Option<String>): (r: Option<String>)
    ensures '/' !in q ==> r == eval(q)
  {
    eval(Preprocess(q))
  }

  // ---------------------------------------------------------------------------
  // A single division

  /** Spacing out the '/' of `a/b`, where neither side holds one. */
  lemma SpaceSlash(a: String, b: String)
    requires '/' !in a && '/' !in b
    ensures Replace(a + "/" + b, "/", " / ") == a + " / " + b
  {
    assert a + "/" + b == a + ("/" + b);
    ReplaceAfterPrefix(a, "/" + b, "/", " / ");
    ReplaceLeadingMatch("/", b, " / ");
    NoMatchWithout(b, "/");
  }

  /** A text without a pattern's first character has no match of it. */
  lemma NoMatchWithout(s: String, pat: String)
    requires |pat| > 0 && pat[0] !in s
    ensures !Contains(s, pat)
  {
    forall j ensures !OccursAt(s, pat, j) {
      AbsentFirstChar(s, pat, j);
    }
  }

  /** `a / b` splits into the three tokens `a`, `/`, `b`. */
  lemma SplitDivision(a: String, b: String)
    requires |a| > 0 && NoSpace(a) && |b| > 0 && NoSpace(b)
    ensures SplitWhitespace(a + " / " + b) == [a, "/", b]
  {
    var t := " / " + b;
    calc {
      SplitWhitespace(a + " / " + b);
      { assert a + " / " + b == a + t; }
      SplitWhitespace(a + t);
      { assert t[0] == ' '; SplitWhitespaceWord(a, t); }
      [a] + SplitWhitespace(t);
      { SplitSpacedSlash(b); }
      [a] + ["/", b];
    }
  }

  /** ` / b` splits into the tokens `/` and `b`. */
  lemma SplitSpacedSlash(b: String)
    requires |b| > 0 && NoSpace(b)
    ensures SplitWhitespace(" / " + b) == ["/", b]
  {
    var w := [' '] + (['/'] + ([' '] + b));
    assert " / " + b == w by {
      assert |w| == 3 + |b|;
      assert w[..3] == " / " && w[3..] == b;
      assert w == w[..3] + w[3..];
    }
    SplitSpacedWord(' ', '/', b);
  }

  lemma SplitSpacedWord(sp: char, c: char, b: String)
    requires IsSpace(sp) && !IsSpace(c) && |b| > 0 && NoSpace(b)
    ensures SplitWhitespace([sp] + ([c] + ([sp] + b))) == [[c], b]
  {
    SplitWhitespaceSpaces([sp], [c] + ([sp] + b));
    SplitWhitespaceWord([c], [sp] + b);
    SplitWhitespaceSpaces([sp], b);
    SplitWhitespaceOne(b);
  }

  /** Decimalizing keeps a token free of whitespace and of '/'. */
  lemma DecimalizeChars(t: String)
    requires NoSpace(t) && '/' !in t
    ensures NoSpace(Decimalize(t)) && '/' !in Decimalize(t) && |Decimalize(t)| >= |t|
  {
  }

  /** The tokens of a spaced-out quotient, after decimalizing. */
  lemma DivisionTokens(a: String, b: String)
    requires |a| > 0 && NoSpace(a) && '/' !in a
    requires |b| > 0 && NoSpace(b) && '/' !in b
    ensures DecimalizeAll(SplitWhitespace(Replace(a + "/" + b, "/", " / ")))
         == [Decimalize(a), "/", Decimalize(b)]
  {
    SpaceSlash(a, b);
    SplitDivision(a, b);
    assert !IsI64Literal("/");
  }

  /** Joining `x`, `/`, `y` with spaces and collapsing " / " gives back `x/y`. */
  lemma CollapseSlash(x: String, y: String)
    requires ' ' !in x && ' ' !in y
    ensures Replace(Join([x, "/", y], " "), " / ", "/") == x + "/" + y
  {
    var tail := " / " + y;
    assert Join([x, "/", y], " ") == x + tail by {
      assert [x, "/", y] == [x] + ["/", y];
      JoinCons(x, ["/", y], " ");
      assert ["/", y] == ["/"] + [y];
      JoinCons("/", [y], " ");
    }
    calc {
      Replace(x + tail, " / ", "/");
    == { ReplaceAfterPrefix(x, tail, " / ", "/"); }
      x + Replace(tail, " / ", "/");
    == { ReplaceLeadingMatch(" / ", y, "/"); }
      x + ("/" + Replace(y, " / ", "/"));
    == { NoMatchWithout(y, " / "); }
      x + ("/" + y);
    }
  }


  /**
   * A quotient of two tokens (no whitespace, no '/') reaches the library as
   * the two decimalized tokens around a bare '/'.
   */
  lemma PreprocessDivision(a: String, b: String)
    requires |a| > 0 && NoSpace(a) && '/' !in a
    requires |b| > 0 && NoSpace(b) && '/' !in b
    ensures Preprocess(a + "/" + b) == Decimalize(a) + "/" + Decimalize(b)
  {
    assert (a + "/" + b)[|a|] == '/';
    DivisionTokens(a, b);
    DecimalizeChars(a);
    DecimalizeChars(b);
    CollapseSlash(Decimalize(a), Decimalize(b));
  }

  /** Preprocessing a quotient of two tokens a second time changes nothing: no token gets ".0" twice. */
  lemma PreprocessDivisionStable(a: String, b: String)
    requires |a| > 0 && NoSpace(a) && '/' !in a
    requires |b| > 0 && NoSpace(b) && '/' !in b
    ensures Preprocess(Preprocess(a + "/" + b)) == Preprocess(a + "/" + b)
  {
    PreprocessDivision(a, b);
    DecimalizeChars(a);
    DecimalizeChars(b);
    PreprocessDivision(Decimalize(a), Decimalize(b));
    DecimalizeIdempotent(a);
    DecimalizeIdempotent(b);
  }

  lemma DecimalizeDigit(d: char)
    requires IsDigit(d)
    ensures Decimalize([d]) == [d] + ".0"
  {
    assert DigitsValue([d]) <= 9 by {
      assert [d][..0] == [];
    }
  }

  /**
   * A one-digit quotient such as `7/2` is sent as `7.0/2.0`, so the library
   * divides as floating point (3.5) rather than as integers (3).
   */
  lemma DigitOverDigit(d: char, e: char)
    requires IsDigit(d) && IsDigit(e)
    ensures Preprocess([d] + "/" + [e]) == [d, '.', '0', '/', e, '.', '0']
  {
    DigitToken(d);
    DigitToken(e);
    PreprocessDivision([d], [e]);
    DecimalizedDigits(d, e);
  }

  lemma DecimalizedDigits(d: char, e: char)
    requires IsDigit(d) && IsDigit(e)
    ensures Decimalize([d]) + "/" + Decimalize([e]) == [d, '.', '0', '/', e, '.', '0']
  {
    DecimalizeDigit(d);
    DecimalizeDigit(e);
  }

  lemma DigitToken(d: char)
    requires IsDigit(d)
    ensures NoSpace([d]) && '/' !in [d]
  {
  }

  /** A token beyond the 64-bit range is not an `i64` literal and is left alone. */
  lemma OutOfRangeKept(t: String)
    requires |t| > 0 && AllDigits(t) && DigitsValue(t) > MaxI64
    ensures Decimalize(t) == t
  {
  }
}

=== FILE: paths.dfy ===
/**
 * The ordering of discovered files (`desktop_files.sort()` followed by
 * `desktop_files.dedup()`). A `PathBuf` compares component by component.
 * Components compare as values of Rust's `Component` enum, whose derived order
 * puts `ParentDir` (`..`) before every `Normal` name; two names compare by
 * their bytes, and on UTF-8 text the byte order is the code-point order, so a
 * name is compared here as a string of characters.
 */
module Paths {
  import opened Strings

  /** A path as the list of its components: `/usr/share` is `["usr", "share"]`. */
  type Path = seq<String>

  // ---------------------------------------------------------------------------
  // Lexicographic order

  /** `a` sorts strictly before `b`: a proper prefix, or smaller at the first difference. */
  predicate LexLess<T(==)>(a: seq<T>, b: seq<T>, lt: (T, T) -> bool)
    decreases |a|
  {
    |b| > 0 && (|a| == 0 || lt(a[0], b[0]) || (a[0] == b[0] && LexLess(a[1..], b[1..], lt)))
  }

  /** `lt` is a strict total order. */
  ghost predicate StrictTotal<T(!new)>(lt: (T, T) -> bool) {
    && (forall x :: !lt(x, x))
    && (forall x, y, z :: lt(x, y) && lt(y, z) ==> lt(x, z))
    && (forall x, y :: x == y || lt(x, y) || lt(y, x))
  }

  lemma {:induction false} LexIrreflexive<T(!new)>(a: seq<T>, lt: (T, T) -> bool)
    requires StrictTotal(lt)
    ensures !LexLess(a, a, lt)
    decreases |a|
  {
    if |a| > 0 {
      LexIrreflexive(a[1..], lt);
    }
  }

  lemma {:induction false} LexTransitive<T(!new)>(a: seq<T>, b: seq<T>, c: seq<T>, lt: (T, T) -> bool)
    requires StrictTotal(lt)
    requires LexLess(a, b, lt) && LexLess(b, c, lt)
    ensures LexLess(a, c, lt)
    decreases |a|
  {
    if |a| > 0 && a[0] == b[0] && b[0] == c[0] {
      LexTransitive(a[1..], b[1..], c[1..], lt);
    }
  }

  lemma {:induction false} LexTotal<T(!new)>(a: seq<T>, b: seq<T>, lt: (T, T) -> bool)
    requires StrictTotal(lt)
    ensures a == b || LexLess(a, b, lt) || LexLess(b, a, lt)
    decreases |a|
  {
    if |a| > 0 && |b| > 0 && a[0] == b[0] {
      LexTotal(a[1..], b[1..], lt);
      if a[1..] == b[1..] {
        assert a == [a[0]] + a[1..] && b == [b[0]] + b[1..];
      }
    }
  }

  function CharLess(a: char, b: char): bool {
    a < b
  }

  /** Order of two names: by code point, a proper prefix first. */
  predicate StrLess(a: String, b: String) {
    LexLess(a, b, CharLess)
  }

  const ParentDir: String := ".."

  /** Component order: `..` (`Component::ParentDir`) before every name, names by `StrLess`. */
  predicate CompLess(a: String, b: String) {
    if a == ParentDir then b != ParentDir else b != ParentDir && StrLess(a, b)
  }

  /** `PathBuf` order: by component, a proper prefix of components first. */
  predicate PathLess(p: Path, q: Path) {
    LexLess(p, q, CompLess)
  }

  /** Components are totally ordered. */
  lemma StrLessStrictTotal()
    ensures StrictTotal(StrLess)
  {
    assert StrictTotal(CharLess);
    forall a: String ensures !StrLess(a, a) {
      LexIrreflexive(a, CharLess);
    }
    forall a: String, b: String, c: String | StrLess(a, b) && StrLess(b, c) ensures StrLess(a, c) {
      LexTransitive(a, b, c, CharLess);
    }
    forall a: String, b: String ensures a == b || StrLess(a, b) || StrLess(b, a) {
      LexTotal(a, b, CharLess);
    }
  }

  /** Components are totally ordered, with `..` least. */
  lemma CompLessStrictTotal()
    ensures StrictTotal(CompLess)
    ensures forall a: String :: a != ParentDir ==> CompLess(ParentDir, a)
  {
    StrLessStrictTotal();
  }

  lemma PathLessIrreflexive(p: Path)
    ensures !PathLess(p, p)
  {
    CompLessStrictTotal();
    LexIrreflexive(p, CompLess);
  }

  lemma PathLessTransitive(p: Path, q: Path, r: Path)
    requires PathLess(p, q) && PathLess(q, r)
    ensures PathLess(p, r)
  {
    CompLessStrictTotal();
    LexTransitive(p, q, r, CompLess);
  }

  lemma PathLessTotal(p: Path, q: Path)
    ensures p == q || PathLess(p, q) || PathLess(q, p)
  {
    CompLessStrictTotal();
    LexTotal(p, q, CompLess);
  }

  lemma PathLessAsymmetric(p: Path, q: Path)
    requires PathLess(p, q)
    ensures !PathLess(q, p)
  {
    if PathLess(q, p) {
      PathLessTransitive(p, q, p);
      PathLessIrreflexive(p);
    }
  }

  /** "Sorts before or equal to" is transitive. */
  lemma PathLeTransitive(p: Path, q: Path, r: Path)
    requires !PathLess(q, p) && !PathLess(r, q)
    ensures !PathLess(r, p)
  {
    PathLessTotal(p, q);
    PathLessTotal(q, r);
    if PathLess(r, p) {
      if p == q {
      } else if q == r {
      } else {
        PathLessTransitive(p, q, r);
        PathLessAsymmetric(r, p);
      }
    }
  }

  /** A directory's path sorts before every path beneath it. */
  lemma {:induction false} ParentFirst(p: Path, rest: Path)
    requires |rest| > 0
    ensures PathLess(p, p + rest)
    decreases |p|
  {
    if |p| > 0 {
      assert (p + rest)[0] == p[0];
      assert (p + rest)[1..] == p[1..] + rest;
      ParentFirst(p[1..], rest);
    }
  }

  /** At the first difference, a `..` component sorts before any name, whatever follows. */
  lemma {:induction false} ParentDirBeforeName(p: Path, name: String, x: Path, y: Path)
    requires name != ParentDir
    ensures PathLess(p + [ParentDir] + x, p + [name] + y)
    decreases |p|
  {
    if |p| > 0 {
      assert (p + [ParentDir] + x)[1..] == p[1..] + [ParentDir] + x;
      assert (p + [name] + y)[1..] == p[1..] + [name] + y;
      ParentDirBeforeName(p[1..], name, x, y);
    } else {
      assert (p + [ParentDir] + x)[0] == ParentDir;
      assert (p + [name] + y)[0] == name;
    }
  }

  // ---------------------------------------------------------------------------
  // Sorting

  /** Non-decreasing: no later path sorts before an earlier one. */
  predicate Sorted(s: seq<Path>) {
    forall i, j :: 0 <= i < j < |s| ==> !PathLess(s[j], s[i])
  }

  /** Strictly increasing, hence free of duplicates. */
  predicate Increasing(s: seq<Path>) {
    forall i, j :: 0 <= i < j < |s| ==> PathLess(s[i], s[j])
  }

  /** Insert `x` after every path that sorts before it. */
  function Insert(x: Path, s: seq<Path>): (r: seq<Path>)
    ensures multiset(r) == multiset(s) + multiset{x}
    ensures forall k :: 0 <= k < |r| ==> r[k] == x || r[k] in s
    decreases |s|
  {
    if |s| == 0 then [x]
    else if PathLess(s[0], x) then
      assert s == [s[0]] + s[1..];
      [s[0]] + Insert(x, s[1..])
    else
      [x] + s
  }

  lemma {:induction false} InsertKeepsSorted(x: Path, s: seq<Path>)
    requires Sorted(s)
    ensures Sorted(Insert(x, s))
    decreases |s|
  {
    if |s| > 0 {
      if PathLess(s[0], x) {
        InsertKeepsSorted(x, s[1..]);
        var t := Insert(x, s[1..]);
        forall k | 0 <= k < |t| ensures !PathLess(t[k], s[0]) {
          if t[k] == x {
            PathLessAsymmetric(s[0], x);
          } else {
            var j :| 0 <= j < |s[1..]| && s[1..][j] == t[k];
            assert s[j + 1] == t[k];
          }
        }
        assert Insert(x, s) == [s[0]] + t;
      } else {
        forall j | 0 < j < |s| ensures !PathLess(s[j], x) {
          PathLeTransitive(x, s[0], s[j]);
        }
      }
    }
  }

  /** `sort`, written as insertion sort; `SortedIsUnique` shows any correct sort gives the same list. */
  function Sort(s: seq<Path>): (r: seq<Path>)
    ensures Sorted(r)
    ensures multiset(r) == multiset(s)
    decreases |s|
  {
    if |s| == 0 then []
    else
      assert s == [s[0]] + s[1..];
      InsertKeepsSorted(s[0], Sort(s[1..]));
      Insert(s[0], Sort(s[1..]))
  }

  /** The first element of a sorted list sorts before or equal to every element. */
  lemma SortedHeadIsLeast(s: seq<Path>, x: Path)
    requires Sorted(s) && |s| > 0 && x in multiset(s)
    ensures !PathLess(x, s[0])
  {
    var k :| 0 <= k < |s| && s[k] == x;
    if k == 0 {
      PathLessIrreflexive(x);
    }
  }

  /** Two sorted lists holding the same paths are the same list. */
  lemma {:induction false} SortedIsUnique(a: seq<Path>, b: seq<Path>)
    requires Sorted(a) && Sorted(b) && multiset(a) == multiset(b)
    ensures a == b
    decreases |a|
  {
    if |a| > 0 {
      assert |b| == |multiset(b)| == |multiset(a)| == |a|;
      SortedSameHead(a, b);
      TailsSameMultiset(a, b);
      SortedIsUnique(a[1..], b[1..]);
      assert a == [a[0]] + a[1..] && b == [b[0]] + b[1..];
    }
  }

  lemma SortedSameHead(a: seq<Path>, b: seq<Path>)
    requires Sorted(a) && Sorted(b) && multiset(a) == multiset(b) && |a| > 0 && |b| > 0
    ensures a[0] == b[0]
  {
    assert a[0] in multiset(b) && b[0] in multiset(a);
    SortedHeadIsLeast(b, a[0]);
    SortedHeadIsLeast(a, b[0]);
    PathLessTotal(a[0], b[0]);
  }

  lemma TailsSameMultiset<T>(a: seq<T>, b: seq<T>)
    requires |a| > 0 && |b| > 0 && a[0] == b[0] && multiset(a) == multiset(b)
    ensures multiset(a[1..]) == multiset(b[1..])
  {
    assert a == [a[0]] + a[1..] && b == [b[0]] + b[1..];
    assert multiset(a[1..]) == multiset(a) - multiset{a[0]};
    assert multiset(b[1..]) == multiset(b) - multiset{b[0]};
  }

  // ---------------------------------------------------------------------------
  // Dedup

  /** `dedup`: collapse every run of equal neighbours into one. */
  function Dedup(s: seq<Path>): (r: seq<Path>)
    ensures |r| <= |s|
    ensures |s| > 0 ==> |r| > 0 && r[0] == s[0]
    ensures forall x :: x in r <==> x in s
    decreases |s|
  {
    if |s| <= 1 then s
    else if s[0] == s[1] then Dedup(s[1..])
    else [s[0]] + Dedup(s[1..])
  }

  /** Deduplicating a sorted list leaves it strictly increasing. */
  lemma {:induction false} DedupSortedIncreasing(s: seq<Path>)
    requires Sorted(s)
    ensures Increasing(Dedup(s))
    decreases |s|
  {
    if |s| > 1 {
      DedupSortedIncreasing(s[1..]);
      var t := Dedup(s[1..]);
      if s[0] != s[1] {
        PathLessTotal(s[0], s[1]);
        forall j | 0 <= j < |t| ensures PathLess(s[0], t[j]) {
          assert t[j] in s[1..];
          var k :| 0 <= k < |s[1..]| && s[1..][k] == t[j];
          assert s[k + 1] == t[j];
          if k > 0 {
            assert !PathLess(s[k + 1], s[1]);
            PathLessTotal(s[1], s[k + 1]);
            if s[1] != s[k + 1] {
              PathLessTransitive(s[0], s[1], s[k + 1]);
            }
          }
        }
      }
    }
  }

  /** A strictly increasing list has no path twice. */
  lemma IncreasingDistinct(s: seq<Path>)
    requires Increasing(s)
    ensures forall i, j :: 0 <= i < j < |s| ==> s[i] != s[j]
  {
    forall i, j | 0 <= i < j < |s| ensures s[i] != s[j] {
      PathLessIrreflexive(s[i]);
    }
  }

  /** `sort` then `dedup`: every discovered path once, in increasing order. */
  function SortDedup(s: seq<Path>): (r: seq<Path>)
    ensures Increasing(r)
    ensures forall x :: x in r <==> x in s
  {
    var t := Sort(s);
    assert forall x :: x in t <==> x in multiset(s);
    DedupSortedIncreasing(t);
    Dedup(t)
  }
}

=== FILE: query.dfy ===
/**
 * The search box and the list under it (the `connect_changed`,
 * `connect_activate`, `connect_row_activated` and arrow-key handlers of
 * `build_ui`). The list is its row labels; a label holding " = " is a
 * calculator row, any other is an application name. Row indices are indices
 * into the whole list: `row_at_index` and `ListBoxRow::index` ignore the
 * filter, so a hidden row keeps its index and can still be reached by them.
 * The selection follows its row: prepending a row moves it down by one, and
 * removing the selected row leaves nothing selected.
 */
module Query {
  import opened Wrappers
  import opened Strings
  import MathEval
  import Catalog
  import Paths
  import Discovery

  /** What separates a calculator row's expression from its result. */
  const Sep: String := " = "

  /** A calculator row, recognised only by the separator in its label. */
  predicate IsMath(row: String) {
    Contains(row, Sep)
  }

  /** The label of the calculator row for `query` (`create_math_result_item`). */
  function MathLabel(query: String, result: String): (r: String)
    ensures IsMath(r)
  {
    assert OccursAt(query + Sep + result, Sep, |query|);
    query + Sep + result
  }

  /**
   * The list's state: the labels in order, the selected index, and the
   * lower-cased query of the filter in force (`None` once it is unset).
   */
  datatype Ui = Ui(rows: seq<String>, selected: Option<nat>, filter: Option<String>)

  /** The selection names an existing row. */
  predicate Wf(ui: Ui) {
    ui.selected.Some? ==> ui.selected.value < |ui.rows|
  }

  /** The filter function: calculator rows always pass, others when the lower-cased label holds the query. */
  predicate Visible(filter: Option<String>, row: String) {
    match filter
    case None => true
    case Some(q) => IsMath(row) || Contains(Lower(row), q)
  }

  // ---------------------------------------------------------------------------
  // Rows coming and going

  /** `remove` of row 0. */
  function RemoveFirst(ui: Ui): (r: Ui)
    requires Wf(ui) && |ui.rows| > 0
    ensures Wf(r) && r.rows == ui.rows[1..] && r.filter == ui.filter
    ensures r.selected.Some? ==> ui.selected.Some? && ui.rows[ui.selected.value] == r.rows[r.selected.value]
    ensures r.selected.None? ==> ui.selected.None? || ui.selected == Some(0)
    ensures ui.selected == Some(0) ==> r.selected.None?
    ensures ui.selected.Some? && ui.selected.value > 0 ==> r.selected == Some(ui.selected.value - 1)
  {
    var sel := match ui.selected
      case None => None
      case Some(k) => if k == 0 then None else Some(k - 1);
    Ui(ui.rows[1..], sel, ui.filter)
  }

  /** `prepend` of a new row. */
  function Prepend(ui: Ui, row: String): (r: Ui)
    requires Wf(ui)
    ensures Wf(r) && r.rows == [row] + ui.rows && r.filter == ui.filter
    ensures r.selected.Some? <==> ui.selected.Some?
    ensures r.selected.Some? ==> r.rows[r.selected.value] == ui.rows[ui.selected.value] && r.selected.value > 0
    ensures ui.selected.Some? ==> r.selected == Some(ui.selected.value + 1)
  {
    var sel := match ui.selected
      case None => None
      case Some(k) => Some(k + 1);
    Ui([row] + ui.rows, sel, ui.filter)
  }

  /** Where a selection ends up once the first `d` rows are gone. */
  function AfterDropping(sel: Option<nat>, d: nat): (r: Option<nat>)
    ensures r.Some? <==> sel.Some? && sel.value >= d
    ensures r.Some? ==> r.value + d == sel.value
  {
    match sel
    case None => None
    case Some(k) => if k < d then None else Some(k - d)
  }

  /** The length of the run of calculator rows at the front, from `from` on. */
  function MathRun(rows: seq<String>, from: nat): (n: nat)
    requires from <= |rows|
    ensures from <= n <= |rows|
    ensures forall i :: from <= i < n ==> IsMath(rows[i])
    ensures n < |rows| ==> !IsMath(rows[n])
    decreases |rows| - from
  {
    if from < |rows| && IsMath(rows[from]) then MathRun(rows, from + 1) else from
  }

  /**
   * The loop that removes row 0 while it is a calculator row: what goes is a
   * run of calculator rows, what stays does not start with one, and a
   * selected row that stays stays selected.
   */
  function StripMath(ui: Ui): (r: Ui)
    requires Wf(ui)
    ensures Wf(r) && r.filter == ui.filter
    ensures |r.rows| <= |ui.rows| && r.rows == ui.rows[|ui.rows| - |r.rows|..]
    ensures forall i :: 0 <= i < |ui.rows| - |r.rows| ==> IsMath(ui.rows[i])
    ensures |r.rows| > 0 ==> !IsMath(r.rows[0])
    ensures r.selected.Some? ==> ui.selected.Some? && r.rows[r.selected.value] == ui.rows[ui.selected.value]
    ensures ui.selected.Some? && ui.selected.value >= |ui.rows| - |r.rows| ==> r.selected.Some?
    ensures r.selected == AfterDropping(ui.selected, |ui.rows| - |r.rows|)
  {
    var d := MathRun(ui.rows, 0);
    Ui(ui.rows[d..], AfterDropping(ui.selected, d), ui.filter)
  }

  // ---------------------------------------------------------------------------
  // The idle selection

  /** The scan of the idle callback: the first index from `from` on whose row passes the filter. */
  function FirstVisible(rows: seq<String>, filter: Option<String>, from: nat): (r: Option<nat>)
    ensures r.None? ==> forall j :: from <= j < |rows| ==> !Visible(filter, rows[j])
    ensures r.Some? ==> from <= r.value < |rows| && Visible(filter, rows[r.value])
    ensures r.Some? ==> forall j :: from <= j < r.value ==> !Visible(filter, rows[j])
    decreases |rows| - from
  {
    if from >= |rows| then None
    else if Visible(filter, rows[from]) then Some(from)
    else FirstVisible(rows, filter, from + 1)
  }

  /** Select the first row the filter shows; with none, the selection stays as it was. */
  function SelectFirstVisible(ui: Ui): (r: Ui)
    requires Wf(ui)
    ensures Wf(r) && r.rows == ui.rows && r.filter == ui.filter
    ensures (exists j :: 0 <= j < |ui.rows| && Visible(ui.filter, ui.rows[j])) ==>
              r.selected.Some? && Visible(r.filter, r.rows[r.selected.value])
              && forall j :: 0 <= j < r.selected.value ==> !Visible(r.filter, r.rows[j])
    ensures (forall j :: 0 <= j < |ui.rows| ==> !Visible(ui.filter, ui.rows[j])) ==> r == ui
  {
    match FirstVisible(ui.rows, ui.filter, 0)
    case None => ui
    case Some(i) => ui.(selected := Some(i))
  }

  // ---------------------------------------------------------------------------
  // A change of the query

  /**
   * `connect_changed` for the entry text `text`: stale calculator rows go;
   * an empty query unsets the filter and selects row 0; otherwise a
   * calculator row is put on top when the lower-cased query evaluates, the
   * filter is set to that query and the first row it shows is selected.
   */
  function OnChanged(ui: Ui, text: String, eval: String -> Option<String>): (r: Ui)
    requires Wf(ui)
    ensures Wf(r)
    ensures r.filter.None? <==> |text| == 0
    ensures r.filter.Some? ==> r.filter.value == Lower(text)
  {
    var q := Lower(text);
    var kept := StripMath(ui);
    if |q| == 0 then
      Ui(kept.rows, if |kept.rows| > 0 then Some(0) else None, None)
    else
      var shown := match MathEval.Evaluate(q, eval)
        case Some(res) => Prepend(kept, MathLabel(q, res))
        case None => kept;
      SelectFirstVisible(shown.(filter := Some(q)))
  }

  /**
   * The rows after a change: the previous rows minus their leading
   * calculator rows, with one new calculator row on top exactly when the
   * query is non-empty and evaluates.
   */
  lemma OnChangedRows(ui: Ui, text: String, eval: String -> Option<String>)
    requires Wf(ui)
    ensures var r := OnChanged(ui, text, eval);
      var kept := StripMath(ui).rows;
      var q := Lower(text);
      && (|q| > 0 && MathEval.Evaluate(q, eval).Some? ==>
            r.rows == [MathLabel(q, MathEval.Evaluate(q, eval).value)] + kept)
      && (|q| == 0 || MathEval.Evaluate(q, eval).None? ==> r.rows == kept)
  {
  }

  /**
   * No calculator row from an earlier query survives at the top: a leading
   * calculator row is the one for the present query, and the row after it
   * is not a calculator row.
   */
  lemma OnChangedNoStaleMath(ui: Ui, text: String, eval: String -> Option<String>)
    requires Wf(ui)
    ensures var r := OnChanged(ui, text, eval);
      var q := Lower(text);
      && (|r.rows| > 0 && IsMath(r.rows[0]) ==>
            |q| > 0 && MathEval.Evaluate(q, eval).Some?
            && r.rows[0] == MathLabel(q, MathEval.Evaluate(q, eval).value))
      && (|r.rows| > 1 && IsMath(r.rows[0]) ==> !IsMath(r.rows[1]))
  {
    OnChangedRows(ui, text, eval);
    var kept := StripMath(ui).rows;
    var q := Lower(text);
    if |q| > 0 && MathEval.Evaluate(q, eval).Some? {
      var r := OnChanged(ui, text, eval);
      if |r.rows| > 1 {
        assert r.rows[1] == kept[0];
      }
    }
  }

  /**
   * The handler lower-cases the text first, so typing in capitals gives the
   * same list, selection and filter as typing in small letters.
   */
  lemma OnChangedIgnoresCase(ui: Ui, text: String, eval: String -> Option<String>)
    requires Wf(ui)
    ensures OnChanged(ui, Lower(text), eval) == OnChanged(ui, text, eval)
  {
    LowerIdempotent(text);
  }

  /** An empty query shows every row and selects row 0 when there is one. */
  lemma OnChangedEmpty(ui: Ui, eval: String -> Option<String>)
    requires Wf(ui)
    ensures var r := OnChanged(ui, [], eval);
      && r.filter.None?
      && (forall j :: 0 <= j < |r.rows| ==> Visible(r.filter, r.rows[j]))
      && (r.selected.Some? <==> |r.rows| > 0)
      && (r.selected.Some? ==> r.selected.value == 0)
  {
  }

  /**
   * A non-empty query selects the first row that is a calculator row or
   * whose lower-cased label holds the lower-cased query.
   */
  lemma OnChangedSelects(ui: Ui, text: String, eval: String -> Option<String>)
    requires Wf(ui) && |text| > 0
    requires var r := OnChanged(ui, text, eval);
      exists j :: 0 <= j < |r.rows| && Visible(Some(Lower(text)), r.rows[j])
    ensures var r := OnChanged(ui, text, eval);
      && r.selected.Some? && Visible(Some(Lower(text)), r.rows[r.selected.value])
      && forall j :: 0 <= j < r.selected.value ==> !Visible(Some(Lower(text)), r.rows[j])
  {
  }

  /**
   * When no row qualifies, the selection is left where it was: on the row
   * selected before, if that row survived the stripping of the leading
   * calculator rows, and on nothing otherwise.
   */
  lemma OnChangedKeepsSelection(ui: Ui, text: String, eval: String -> Option<String>)
    requires Wf(ui) && |text| > 0
    requires var r := OnChanged(ui, text, eval);
      forall j :: 0 <= j < |r.rows| ==> !Visible(Some(Lower(text)), r.rows[j])
    ensures var r := OnChanged(ui, text, eval);
      && r.rows == ui.rows[MathRun(ui.rows, 0)..]
      && r.selected == AfterDropping(ui.selected, MathRun(ui.rows, 0))
      && (r.selected.Some? ==> ui.selected.Some? && r.rows[r.selected.value] == ui.rows[ui.selected.value])
  {
  }

  /** When the query evaluates, its calculator row is on top and selected. */
  lemma OnChangedSelectsResult(ui: Ui, text: String, eval: String -> Option<String>)
    requires Wf(ui) && |text| > 0 && MathEval.Evaluate(Lower(text), eval).Some?
    ensures var r := OnChanged(ui, text, eval);
      r.selected == Some(0) && IsMath(r.rows[0])
  {
    OnChangedRows(ui, text, eval);
  }

  /**
   * An application whose name holds " = " is taken for a calculator row:
   * standing first in the list, it is removed by the next change of the query.
   */
  lemma AppNamedLikeMathIsRemoved(ui: Ui, text: String, eval: String -> Option<String>)
    requires Wf(ui) && |ui.rows| > 1 && IsMath(ui.rows[0]) && !IsMath(ui.rows[1])
    ensures var r := OnChanged(ui, text, eval);
      var q := Lower(text);
      && (|q| > 0 && MathEval.Evaluate(q, eval).Some? ==>
            r.rows == [MathLabel(q, MathEval.Evaluate(q, eval).value)] + ui.rows[1..])
      && (|q| == 0 || MathEval.Evaluate(q, eval).None? ==> r.rows == ui.rows[1..])
  {
    assert StripMath(ui).rows == ui.rows[1..];
    OnChangedRows(ui, text, eval);
  }

  // ---------------------------------------------------------------------------
  // Committing a row

  /** What a commit does: copy a result and close, launch a command and close, or nothing. */
  datatype Outcome = Copy(text: String) | Launch(exec: String) | Stay

  /**
   * Committing one row: a calculator row copies the text after its last
   * " = "; an application row launches its command when its name is in the
   * map, and does nothing otherwise.
   */
  function CommitRow(row: String, commands: map<String, String>): (r: Outcome)
    ensures r.Copy? <==> IsMath(row)
    ensures r.Copy? ==> EndsWith(row, r.text) && !Contains(r.text, Sep)
    ensures r.Copy? ==> r.text == Split(row, Sep)[|Split(row, Sep)| - 1]
    ensures r.Launch? <==> !IsMath(row) && row in commands
    ensures r.Launch? ==> r.exec == commands[row]
  {
    if IsMath(row) then
      LastStartIsClear(row, Sep, 0);
      LastStartIsLastOfSplit(row, Sep, 0);
      var piece := LastPiece(row, Sep);
      assert !Contains(piece, Sep) by {
        var k := LastStart(row, Sep, 0);
        forall j | 0 <= j <= |piece| - |Sep| ensures !OccursAt(piece, Sep, j) {
          assert !OccursAt(row, Sep, k + j);
          PieceOccurrence(row, k, j);
        }
      }
      Copy(piece)
    else if row in commands then Launch(commands[row])
    else Stay
  }

  lemma PieceOccurrence(s: String, k: nat, j: nat)
    requires k <= |s|
    ensures OccursAt(s[k..], Sep, j) <==> OccursAt(s, Sep, k + j)
  {
    assert s == s[..k] + s[k..];
    OccursAtConcat(s[..k], s[k..], Sep, j);
  }

  /** `row_activated`: a click or Enter on row `i`. */
  function Activate(ui: Ui, i: nat, commands: map<String, String>): (r: Outcome)
    requires i < |ui.rows|
    ensures r.Copy? <==> IsMath(ui.rows[i])
    ensures r.Launch? ==> ui.rows[i] in commands && r.exec == commands[ui.rows[i]]
  {
    CommitRow(ui.rows[i], commands)
  }

  /**
   * `connect_activate` (Enter in the entry) with the raw entry text `text`:
   * the selected row is committed; with none selected, the raw text is
   * evaluated and its result copied; failing that, row 0 of the whole list
   * (shown or not) is selected and committed.
   */
  function Commit(ui: Ui, text: String, commands: map<String, String>, eval: String -> Option<String>): (r: (Ui, Outcome))
    requires Wf(ui)
    ensures Wf(r.0) && r.0.rows == ui.rows && r.0.filter == ui.filter
    ensures ui.selected.Some? ==> r == (ui, CommitRow(ui.rows[ui.selected.value], commands))
    ensures ui.selected.None? && MathEval.Evaluate(text, eval).Some? ==>
              r.1 == Copy(MathEval.Evaluate(text, eval).value)
    ensures ui.selected.None? && MathEval.Evaluate(text, eval).None? && |ui.rows| > 0 ==>
              r == (ui.(selected := Some(0)), CommitRow(ui.rows[0], commands))
    ensures ui.selected.None? && MathEval.Evaluate(text, eval).None? && |ui.rows| == 0 ==> r.1 == Stay
  {
    match ui.selected
    case Some(i) => (ui, CommitRow(ui.rows[i], commands))
    case None =>
      match MathEval.Evaluate(text, eval)
      case Some(res) => (ui, Copy(res))
      case None =>
        if |ui.rows| > 0 then (ui.(selected := Some(0)), CommitRow(ui.rows[0], commands))
        else (ui, Stay)
  }

  /**
   * Committing the calculator row for `query` copies exactly the result,
   * provided the result holds no " = " and the query does not end in " =".
   */
  lemma MathRowCopiesResult(query: String, result: String, commands: map<String, String>)
    requires !Contains(result, Sep) && !EndsWith(query, " =")
    ensures CommitRow(MathLabel(query, result), commands) == Copy(result)
  {
    var s := MathLabel(query, result);
    var m := |query|;
    SeparatorOnlyAtJoin(query, result);
    LastStartReaches(s, Sep, 0, m);
    NothingAfterSeparator(query, result);
    assert s[m + |Sep|..] == result;
  }

  /** Around the join, the only separator is the one put there. */
  lemma SeparatorOnlyAtJoin(query: String, result: String)
    requires !EndsWith(query, " =")
    ensures OccursAt(query + Sep + result, Sep, |query|)
    ensures forall j :: |query| - |Sep| < j < |query| ==> !OccursAt(query + Sep + result, Sep, j)
  {
    var s := query + Sep + result;
    var m := |query|;
    assert OccursAt(s, Sep, m);
    forall j | m - |Sep| < j < m ensures !OccursAt(s, Sep, j) {
      if j == m - 1 {
        assert s[j + 1] == ' ' && Sep[1] == '=';
        assert !(s[j + 1] == Sep[1]);
      } else if j >= 0 {
        SeparatorAtEnd(query, result, j);
      }
    }
  }

  /** After the separator put in at the join, a result without one holds no further separator. */
  lemma NothingAfterSeparator(query: String, result: String)
    requires !Contains(result, Sep)
    ensures LastStart(query + Sep + result, Sep, |query| + |Sep|) == |query| + |Sep|
  {
    assert query + Sep + result == (query + Sep) + result;
    assert Find(result, Sep).None?;
    FindFromConcat(query + Sep, result, Sep, 0);
  }

  /**
   * Typing an expression that evaluates and pressing Enter copies its
   * result: the calculator row is on top, selected, and yields the result.
   */
  lemma EnterCopiesResult(ui: Ui, text: String, commands: map<String, String>, eval: String -> Option<String>)
    requires Wf(ui) && |text| > 0
    requires var res := MathEval.Evaluate(Lower(text), eval);
      res.Some? && !Contains(res.value, Sep) && !EndsWith(Lower(text), " =")
    ensures Commit(OnChanged(ui, text, eval), text, commands, eval).1
         == Copy(MathEval.Evaluate(Lower(text), eval).value)
  {
    var res := MathEval.Evaluate(Lower(text), eval).value;
    OnChangedRows(ui, text, eval);
    OnChangedSelectsResult(ui, text, eval);
    MathRowCopiesResult(Lower(text), res, commands);
  }

  /** A separator starting two characters before the end of `query` means `query` ends in " =". */
  lemma SeparatorAtEnd(query: String, result: String, j: nat)
    requires j + 2 == |query|
    ensures OccursAt(query + Sep + result, Sep, j) ==> EndsWith(query, " =")
  {
    var s := query + Sep + result;
    if OccursAt(s, Sep, j) {
      assert s[j + 0] == Sep[0] && s[j + 1] == Sep[1];
      assert query[j..] == [s[j], s[j + 1]];
    }
  }

  // ---------------------------------------------------------------------------
  // Arrow keys

  /** Down: the next row if there is one; with nothing selected, row 0. */
  function Down(ui: Ui): (r: Ui)
    requires Wf(ui)
    ensures Wf(r) && r.rows == ui.rows && r.filter == ui.filter
    ensures ui.selected.Some? ==> r.selected.Some? && ui.selected.value <= r.selected.value <= ui.selected.value + 1
    ensures ui.selected.Some? && ui.selected.value + 1 < |ui.rows| ==> r.selected == Some(ui.selected.value + 1)
    ensures ui.selected.Some? && ui.selected.value + 1 == |ui.rows| ==> r == ui
    ensures ui.selected.None? ==> r.selected == (if |ui.rows| > 0 then Some(0) else None)
  {
    match ui.selected
    case Some(k) => if k + 1 < |ui.rows| then ui.(selected := Some(k + 1)) else ui
    case None => if |ui.rows| > 0 then ui.(selected := Some(0)) else ui
  }

  /** Up: the previous row if the selection is not already at the top; nothing happens otherwise. */
  function Up(ui: Ui): (r: Ui)
    requires Wf(ui)
    ensures Wf(r) && r.rows == ui.rows && r.filter == ui.filter
    ensures ui.selected.None? ==> r == ui
    ensures ui.selected == Some(0) ==> r == ui
    ensures ui.selected.Some? && ui.selected.value > 0 ==> r.selected == Some(ui.selected.value - 1)
  {
    match ui.selected
    case Some(k) => if k > 0 then ui.(selected := Some(k - 1)) else ui
    case None => ui
  }

  /** Up undoes a Down that moved. */
  lemma UpUndoesDown(ui: Ui)
    requires Wf(ui) && ui.selected.Some? && ui.selected.value + 1 < |ui.rows|
    ensures Up(Down(ui)) == ui
  {
  }

  /** Down undoes an Up that moved. */
  lemma DownUndoesUp(ui: Ui)
    requires Wf(ui) && ui.selected.Some? && ui.selected.value > 0
    ensures Down(Up(ui)) == ui
  {
  }

  /** Enough Downs reach the last row and stay there: the selection never wraps to the top. */
  lemma {:induction false} DownsReachBottom(ui: Ui, n: nat)
    requires Wf(ui) && ui.selected.Some? && ui.selected.value + n >= |ui.rows| - 1
    ensures DownTimes(ui, n).selected == Some(|ui.rows| - 1)
    decreases n
  {
    if n > 0 {
      DownsReachBottom(Down(ui), n - 1);
    }
  }

  function DownTimes(ui: Ui, n: nat): (r: Ui)
    requires Wf(ui)
    ensures Wf(r) && r.rows == ui.rows
    decreases n
  {
    if n == 0 then ui else DownTimes(Down(ui), n - 1)
  }

  /** Enough Ups reach row 0 and stay there. */
  lemma {:induction false} UpsReachTop(ui: Ui, n: nat)
    requires Wf(ui) && ui.selected.Some? && ui.selected.value <= n
    ensures UpTimes(ui, n).selected == Some(0)
    decreases n
  {
    if n > 0 {
      UpsReachTop(Up(ui), n - 1);
    }
  }

  function UpTimes(ui: Ui, n: nat): (r: Ui)
    requires Wf(ui)
    ensures Wf(r) && r.rows == ui.rows
    decreases n
  {
    if n == 0 then ui else UpTimes(Up(ui), n - 1)
  }

  // ---------------------------------------------------------------------------
  // Start-up

  /**
   * The window as `build_ui` leaves it: the loaded rows, no filter, and row 0
   * selected when there is one.
   */
  function Initial(c: Catalog.Catalog): (r: Ui)
    ensures Wf(r) && r.rows == c.rows && r.filter.None?
    ensures r.selected.Some? <==> |c.rows| > 0
    ensures r.selected.Some? ==> r.selected.value == 0
    ensures forall j :: 0 <= j < |r.rows| ==> Visible(r.filter, r.rows[j])
  {
    Ui(c.rows, Catalog.InitialSelection(c), None)
  }

  /**
   * Pressing Enter right after start-up launches the first application's
   * command: row 0 is selected and its name is in the command map.
   */
  lemma StartupEnterLaunches(roots: seq<(Paths.Path, Option<seq<Discovery.Node>>)>, files: map<Paths.Path, String>,
                             text: String, eval: String -> Option<String>)
    requires var c := Catalog.Startup(roots, files); |c.rows| > 0 && !IsMath(c.rows[0])
    ensures var c := Catalog.Startup(roots, files);
      && c.rows[0] in c.commands
      && Commit(Initial(c), text, c.commands, eval).1 == Launch(c.commands[c.rows[0]])
  {
  }
}

=== FILE: strings.dfy ===
/**
 * The handful of Rust `str` operations the launcher relies on, written over
 * `seq<char>`: pattern search, `replace`, `split`, `trim`,
 * `trim_start_matches`, `split_whitespace`, `join`, `lines` and an ASCII
 * `to_lowercase`. Every pattern-based operation scans left to right and
 * consumes matches without overlap, as Rust's `StrSearcher` does.
 */
module Strings {
  import opened Wrappers

  type String = seq<char>

  /** Unicode White_Space, the set behind Rust's `char::is_whitespace`. */
  predicate IsSpace(c: char) {
    || c == ' '
    || ('\t' <= c <= '\r')
    || c == '\U{85}' || c == '\U{A0}' || c == '\U{1680}'
    || ('\U{2000}' <= c <= '\U{200A}')
    || c == '\U{2028}' || c == '\U{2029}' || c == '\U{202F}' || c == '\U{205F}'
    || c == '\U{3000}'
  }

  predicate NoSpace(s: String) {
    forall i :: 0 <= i < |s| ==> !IsSpace(s[i])
  }

  predicate IsUpper(c: char) {
    'A' <= c <= 'Z'
  }

  /** ASCII case folding of one character. */
  function LowerChar(c: char): (r: char)
    ensures !IsUpper(r)
    ensures IsUpper(c) ==> r as int == c as int + 32
    ensures !IsUpper(c) ==> r == c
  {
    if IsUpper(c) then (c as int + 32) as char else c
  }

  /** `to_lowercase`, restricted to ASCII letters. */
  function Lower(s: String): (r: String)
    ensures |r| == |s|
    ensures forall i :: 0 <= i < |s| ==> r[i] == LowerChar(s[i])
  {
    seq(|s|, i requires 0 <= i < |s| => LowerChar(s[i]))
  }

  lemma LowerIdempotent(s: String)
    ensures Lower(Lower(s)) == Lower(s)
  {
  }

  predicate StartsWith(s: String, p: String) {
    |p| <= |s| && s[..|p|] == p
  }

  predicate EndsWith(s: String, p: String) {
    |p| <= |s| && s[|s| - |p|..] == p
  }

  /** `pat` occurs in `s` starting at index `i`. */
  predicate OccursAt(s: String, pat: String, i: int) {
    0 <= i && i + |pat| <= |s| && forall k :: 0 <= k < |pat| ==> s[i + k] == pat[k]
  }

  /** `str::contains` with a string pattern. */
  predicate Contains(s: String, pat: String) {
    exists i :: 0 <= i <= |s| - |pat| && OccursAt(s, pat, i)
  }

  /** A character that never appears in `s` rules out every pattern starting with it. */
  lemma AbsentFirstChar(s: String, pat: String, j: int)
    requires |pat| > 0 && pat[0] !in s
    ensures !OccursAt(s, pat, j)
  {
  }

  lemma OccursAtChar(s: String, c: char, j: int)
    requires 0 <= j < |s|
    ensures OccursAt(s, [c], j) <==> s[j] == c
  {
    if s[j] == c {
      forall k | 0 <= k < 1 ensures s[j + k] == [c][k] { }
    } else {
      assert s[j + 0] != [c][0];
    }
  }

  /**
   * The leftmost occurrence of `pat` in `s` at or after index `from`; Rust's
   * searcher resumes this way after each consumed match. `FindFromIsLeftmost`
   * shows the result is the first such occurrence.
   */
  function FindFrom(s: String, pat: String, from: nat): (r: Option<nat>)
    ensures r.Some? ==> from <= r.value && OccursAt(s, pat, r.value)
    decreases |s| - from
  {
    if from + |pat| > |s| then None
    else if OccursAt(s, pat, from) then Some(from)
    else FindFrom(s, pat, from + 1)
  }

  lemma {:induction false} FindFromIsLeftmost(s: String, pat: String, from: nat)
    ensures FindFrom(s, pat, from).None? ==> forall j :: from <= j ==> !OccursAt(s, pat, j)
    ensures FindFrom(s, pat, from).Some? ==>
              forall j :: from <= j < FindFrom(s, pat, from).value ==> !OccursAt(s, pat, j)
    decreases |s| - from
  {
    if from + |pat| > |s| {
    } else if OccursAt(s, pat, from) {
    } else {
      FindFromIsLeftmost(s, pat, from + 1);
    }
  }

  /** `str::find`: the leftmost occurrence of `pat`. */
  function Find(s: String, pat: String): (r: Option<nat>)
    ensures r.None? <==> !Contains(s, pat)
    ensures r.Some? ==> OccursAt(s, pat, r.value)
    ensures r.Some? ==> forall j :: 0 <= j < r.value ==> !OccursAt(s, pat, j)
  {
    FindFromIsLeftmost(s, pat, 0);
    FindFrom(s, pat, 0)
  }

  /** `replace` of the part of `s` from index `from` on. */
  function ReplaceFrom(s: String, pat: String, rep: String, from: nat): (r: String)
    requires |pat| > 0 && from <= |s|
    decreases |s| - from
  {
    match FindFrom(s, pat, from)
    case None => s[from..]
    case Some(i) => s[from..i] + rep + ReplaceFrom(s, pat, rep, i + |pat|)
  }

  /** `str::replace`: every leftmost, non-overlapping match of `pat` becomes `rep`. */
  function Replace(s: String, pat: String, rep: String): (r: String)
    requires |pat| > 0
    ensures !Contains(s, pat) ==> r == s
  {
    FindFromIsLeftmost(s, pat, 0);
    ReplaceFrom(s, pat, rep, 0)
  }

  /** `replace` is `split` at the same matches followed by `join` with the replacement. */
  lemma ReplaceIsJoin(s: String, pat: String, rep: String)
    requires |pat| > 0
    ensures Replace(s, pat, rep) == Join(Split(s, pat), rep)
  {
    ReplaceFromIsJoin(s, pat, rep, 0);
  }

  /** Replacing is splitting at the matches and joining the pieces with the replacement. */
  lemma {:induction false} ReplaceFromIsJoin(s: String, pat: String, rep: String, from: nat)
    requires |pat| > 0 && from <= |s|
    ensures ReplaceFrom(s, pat, rep, from) == Join(SplitFrom(s, pat, from), rep)
    decreases |s| - from
  {
    match FindFrom(s, pat, from)
    case None =>
      SplitFromNone(s, pat, from);
    case Some(i) =>
      var n := i + |pat|;
      var tail := SplitFrom(s, pat, n);
      calc {
        ReplaceFrom(s, pat, rep, from);
        { ReplaceFromStep(s, pat, rep, from, i, n); }
        s[from..i] + rep + ReplaceFrom(s, pat, rep, n);
        { ReplaceFromIsJoin(s, pat, rep, n); }
        s[from..i] + rep + Join(tail, rep);
        { JoinCons(s[from..i], tail, rep); }
        Join([s[from..i]] + tail, rep);
        { SplitFromStep(s, pat, from, i, n); }
        Join(SplitFrom(s, pat, from), rep);
      }
  }

  lemma JoinCons(a: String, t: seq<String>, sep: String)
    requires |t| > 0
    ensures Join([a] + t, sep) == a + sep + Join(t, sep)
  {
    assert ([a] + t)[1..] == t;
  }

  /** One step of the scan: text up to the next match, the replacement, then the rest. */
  lemma ReplaceFromStep(s: String, pat: String, rep: String, from: nat, i: nat, next: nat)
    requires |pat| > 0 && from <= |s|
    requires FindFrom(s, pat, from) == Some(i) && next == i + |pat|
    ensures ReplaceFrom(s, pat, rep, from) == s[from..i] + rep + ReplaceFrom(s, pat, rep, next)
  {
  }

  /** Deleting matches never lengthens the text. */
  lemma {:induction false} ReplaceFromEmptyShrinks(s: String, pat: String, from: nat)
    requires |pat| > 0 && from <= |s|
    ensures |ReplaceFrom(s, pat, [], from)| <= |s| - from
    decreases |s| - from
  {
    match FindFrom(s, pat, from)
    case None =>
    case Some(i) => ReplaceFromEmptyShrinks(s, pat, i + |pat|);
  }

  /** A two-character pattern occurs where its two characters stand side by side. */
  lemma OccursAtPair(s: String, a: char, b: char, j: int)
    ensures OccursAt(s, [a, b], j) <==> 0 <= j && j + 2 <= |s| && s[j] == a && s[j + 1] == b
  {
    if 0 <= j && j + 2 <= |s| && s[j] == a && s[j + 1] == b {
      forall k | 0 <= k < 2 ensures s[j + k] == [a, b][k] {
        if k == 0 {} else {}
      }
    } else if 0 <= j && j + 2 <= |s| {
      assert s[j + 0] != [a, b][0] || s[j + 1] != [a, b][1];
    }
  }

  /** Occurrences in `x + y` from index `|x|` on are the occurrences in `y`, shifted. */
  lemma OccursAtConcat(x: String, y: String, pat: String, j: int)
    requires 0 <= j
    ensures OccursAt(x + y, pat, |x| + j) <==> OccursAt(y, pat, j)
  {
    if j + |pat| <= |y| {
      forall k | 0 <= k < |pat| ensures (x + y)[|x| + j + k] == y[j..][k] { }
    }
  }

  lemma {:induction false} FindFromConcat(x: String, y: String, pat: String, j: nat)
    ensures FindFrom(y, pat, j).None? ==> FindFrom(x + y, pat, |x| + j).None?
    ensures FindFrom(y, pat, j).Some? ==> FindFrom(x + y, pat, |x| + j) == Some(|x| + FindFrom(y, pat, j).value)
    decreases |y| - j
  {
    OccursAtConcat(x, y, pat, j);
    if j + |pat| <= |y| && !OccursAt(y, pat, j) {
      FindFromConcat(x, y, pat, j + 1);
    }
  }

  lemma {:induction false} ReplaceFromConcat(x: String, y: String, pat: String, rep: String, j: nat)
    requires |pat| > 0 && j <= |y|
    ensures ReplaceFrom(x + y, pat, rep, |x| + j) == ReplaceFrom(y, pat, rep, j)
    decreases |y| - j
  {
    match FindFrom(y, pat, j)
    case None =>
      ReplaceFromConcatNone(x, y, pat, rep, j);
    case Some(i) =>
      var n := i + |pat|;
      var s := x + y;
      calc {
        ReplaceFrom(s, pat, rep, |x| + j);
        { ReplaceFromConcatStep(x, y, pat, rep, j, i, n); }
        s[|x| + j..|x| + i] + rep + ReplaceFrom(s, pat, rep, |x| + n);
        { ReplaceFromConcat(x, y, pat, rep, n); }
        s[|x| + j..|x| + i] + rep + ReplaceFrom(y, pat, rep, n);
        { SliceOfConcat(x, y, j, i); }
        y[j..i] + rep + ReplaceFrom(y, pat, rep, n);
        { ReplaceFromStep(y, pat, rep, j, i, n); }
        ReplaceFrom(y, pat, rep, j);
      }
  }

  lemma ReplaceFromConcatNone(x: String, y: String, pat: String, rep: String, j: nat)
    requires |pat| > 0 && j <= |y| && FindFrom(y, pat, j).None?
    ensures ReplaceFrom(x + y, pat, rep, |x| + j) == y[j..] == ReplaceFrom(y, pat, rep, j)
  {
    FindFromConcat(x, y, pat, j);
    SliceOfConcat(x, y, j, |y|);
    assert (x + y)[|x| + j..] == (x + y)[|x| + j..|x| + |y|];
  }

  lemma ReplaceFromConcatStep(x: String, y: String, pat: String, rep: String, j: nat, i: nat, n: nat)
    requires |pat| > 0 && j <= |y| && FindFrom(y, pat, j) == Some(i) && n == i + |pat|
    ensures j <= i && n <= |y|
    ensures ReplaceFrom(x + y, pat, rep, |x| + j)
         == (x + y)[|x| + j..|x| + i] + rep + ReplaceFrom(x + y, pat, rep, |x| + n)
  {
    var s := x + y;
    assert FindFrom(s, pat, |x| + j) == Some(|x| + i) by {
      FindFromConcat(x, y, pat, j);
    }
    ReplaceFromStep(s, pat, rep, |x| + j, |x| + i, |x| + n);
  }

  /** The scan passes over a stretch holding no occurrence. */
  lemma {:induction false} FindFromSkip(s: String, pat: String, from: nat, to: nat)
    requires from <= to
    requires forall j :: from <= j < to ==> !OccursAt(s, pat, j)
    ensures FindFrom(s, pat, from) == FindFrom(s, pat, to)
    decreases (to as int) - (from as int)
  {
    if from < to && from + |pat| <= |s| {
      FindFromSkip(s, pat, from + 1, to);
    } else if from < to {
      FindFromIsLeftmost(s, pat, from);
      FindFromIsLeftmost(s, pat, to);
    }
  }

  /** No match can start inside a prefix that lacks the pattern's first character. */
  lemma PrefixHoldsNoMatch(x: String, y: String, pat: String)
    requires |pat| > 0 && pat[0] !in x
    ensures forall j :: 0 <= j < |x| ==> !OccursAt(x + y, pat, j)
  {
    forall j | 0 <= j < |x| ensures !OccursAt(x + y, pat, j) {
      assert (x + y)[j + 0] == x[j];
    }
  }

  /** A prefix lacking the pattern's first character passes through `replace` untouched. */
  lemma ReplaceAfterPrefix(x: String, y: String, pat: String, rep: String)
    requires |pat| > 0 && pat[0] !in x
    ensures Replace(x + y, pat, rep) == x + Replace(y, pat, rep)
  {
    PrefixHoldsNoMatch(x, y, pat);
    FindFromSkip(x + y, pat, 0, |x|);
    FindFromConcat(x, y, pat, 0);
    ReplaceShifted(x, y, pat, rep);
  }

  /** `replace` over `x + y` when its first match lies inside `y`, or there is none. */
  lemma ReplaceShifted(x: String, y: String, pat: String, rep: String)
    requires |pat| > 0
    requires FindFrom(y, pat, 0).None? ==> FindFrom(x + y, pat, 0).None?
    requires FindFrom(y, pat, 0).Some? ==> FindFrom(x + y, pat, 0) == Some(|x| + FindFrom(y, pat, 0).value)
    ensures ReplaceFrom(x + y, pat, rep, 0) == x + ReplaceFrom(y, pat, rep, 0)
  {
    match FindFrom(y, pat, 0)
    case None =>
      assert (x + y)[0..] == x + y[0..];
    case Some(i) =>
      ReplaceShiftedMatch(x, y, pat, rep, i);
  }

  lemma ReplaceShiftedMatch(x: String, y: String, pat: String, rep: String, i: nat)
    requires |pat| > 0
    requires FindFrom(y, pat, 0) == Some(i) && FindFrom(x + y, pat, 0) == Some(|x| + i)
    ensures ReplaceFrom(x + y, pat, rep, 0) == x + ReplaceFrom(y, pat, rep, 0)
  {
    var s := x + y;
    var n := i + |pat|;
    ReplaceFromConcat(x, y, pat, rep, n);
    var a := ReplaceFrom(s, pat, rep, |x| + n);
    ReplaceFromStep(s, pat, rep, 0, |x| + i, |x| + n);
    ReplaceFromStep(y, pat, rep, 0, i, n);
    assert s[0..|x| + i] == x + y[0..i];
    ConcatAssoc4(x, y[0..i], rep, a);
  }

  lemma SliceOfConcat<T>(x: seq<T>, y: seq<T>, a: nat, b: nat)
    requires a <= b <= |y|
    ensures (x + y)[|x| + a..|x| + b] == y[a..b]
  {
  }

  lemma ConcatAssoc4<T>(a: seq<T>, b: seq<T>, c: seq<T>, d: seq<T>)
    ensures (a + b) + c + d == a + (b + c + d)
  {
  }

  /** A leading match is rewritten and the scan resumes right after it. */
  lemma ReplaceLeadingMatch(pat: String, y: String, rep: String)
    requires |pat| > 0
    ensures Replace(pat + y, pat, rep) == rep + Replace(y, pat, rep)
  {
    var s := pat + y;
    calc {
      Replace(s, pat, rep);
      ReplaceFrom(s, pat, rep, 0);
      { LeadingOccurrence(pat, y); ReplaceFromStep(s, pat, rep, 0, 0, |pat| + 0); }
      s[0..0] + rep + ReplaceFrom(s, pat, rep, |pat| + 0);
      { ReplaceFromConcat(pat, y, pat, rep, 0); }
      s[0..0] + rep + ReplaceFrom(y, pat, rep, 0);
      { assert s[0..0] == []; }
      rep + Replace(y, pat, rep);
    }
  }

  lemma LeadingOccurrence(pat: String, y: String)
    requires |pat| > 0
    ensures FindFrom(pat + y, pat, 0) == Some(0)
  {
    forall k | 0 <= k < |pat| ensures (pat + y)[0 + k] == pat[k] { }
    assert OccursAt(pat + y, pat, 0);
  }

  /** The pieces of `split` from index `from` on. */
  function SplitFrom(s: String, pat: String, from: nat): (r: seq<String>)
    requires |pat| > 0 && from <= |s|
    ensures |r| >= 1
    decreases |s| - from
  {
    match FindFrom(s, pat, from)
    case None => [s[from..]]
    case Some(i) => [s[from..i]] + SplitFrom(s, pat, i + |pat|)
  }

  /** `str::split` with a string pattern: the pieces between leftmost, non-overlapping matches. */
  function Split(s: String, pat: String): (r: seq<String>)
    requires |pat| > 0
    ensures |r| >= 1
  {
    SplitFrom(s, pat, 0)
  }

  /** Where the last piece of `split` (from index `from` on) begins. */
  function LastStart(s: String, pat: String, from: nat): (k: nat)
    requires |pat| > 0 && from <= |s|
    ensures from <= k <= |s|
    ensures k > from ==> k >= |pat| && OccursAt(s, pat, k - |pat|)
    decreases |s| - from
  {
    match FindFrom(s, pat, from)
    case None => from
    case Some(i) => LastStart(s, pat, i + |pat|)
  }

  /** `s.split(pat).last()`. */
  function LastPiece(s: String, pat: String): (r: String)
    requires |pat| > 0
  {
    s[LastStart(s, pat, 0)..]
  }

  /** The last piece starts where the scan finds nothing more. */
  lemma {:induction false} LastStartIsClear(s: String, pat: String, from: nat)
    requires |pat| > 0 && from <= |s|
    ensures forall j :: LastStart(s, pat, from) <= j ==> !OccursAt(s, pat, j)
    decreases |s| - from
  {
    FindFromIsLeftmost(s, pat, from);
    match FindFrom(s, pat, from)
    case None =>
    case Some(i) => LastStartIsClear(s, pat, i + |pat|);
  }

  /** `LastPiece` is the final element of `Split`. */
  lemma {:induction false} LastStartIsLastOfSplit(s: String, pat: String, from: nat)
    requires |pat| > 0 && from <= |s|
    ensures SplitFrom(s, pat, from)[|SplitFrom(s, pat, from)| - 1] == s[LastStart(s, pat, from)..]
    decreases |s| - from
  {
    match FindFrom(s, pat, from)
    case None =>
      SplitFromNone(s, pat, from);
    case Some(i) =>
      var n := i + |pat|;
      var tail := SplitFrom(s, pat, n);
      var split := SplitFrom(s, pat, from);
      calc {
        split[|split| - 1];
        { SplitFromStep(s, pat, from, i, n); }
        ([s[from..i]] + tail)[|[s[from..i]] + tail| - 1];
        { LastOfCons(s[from..i], tail); }
        tail[|tail| - 1];
        { LastStartIsLastOfSplit(s, pat, n); }
        s[LastStart(s, pat, n)..];
        { LastStartStep(s, pat, from, i, n); }
        s[LastStart(s, pat, from)..];
      }
  }

  /**
   * The scan started anywhere before an occurrence that no earlier one
   * overlaps goes through that occurrence and resumes right after it.
   */
  lemma {:induction false} LastStartReaches(s: String, pat: String, from: nat, m: nat)
    requires |pat| > 0 && from <= m && OccursAt(s, pat, m)
    requires forall j :: m - |pat| < j < m ==> !OccursAt(s, pat, j)
    ensures LastStart(s, pat, from) == LastStart(s, pat, m + |pat|)
    decreases m - from
  {
    var i := NextMatchBefore(s, pat, from, m);
    var n := i + |pat|;
    if i < m {
      calc {
        LastStart(s, pat, from);
        { LastStartStep(s, pat, from, i, n); }
        LastStart(s, pat, n);
        { LastStartReaches(s, pat, n, m); }
        LastStart(s, pat, m + |pat|);
      }
    } else {
      LastStartStep(s, pat, from, i, n);
    }
  }

  /** The next match from `from` is `m` itself or ends no later than `m`. */
  lemma NextMatchBefore(s: String, pat: String, from: nat, m: nat) returns (i: nat)
    requires |pat| > 0 && from <= m && OccursAt(s, pat, m)
    requires forall j :: m - |pat| < j < m ==> !OccursAt(s, pat, j)
    ensures FindFrom(s, pat, from) == Some(i)
    ensures i == m || i + |pat| <= m
  {
    FindFromIsLeftmost(s, pat, from);
    i := FindFrom(s, pat, from).value;
  }

  /** With no occurrence from `from` on, the scan stops where it starts. */
  lemma LastStartAtEnd(s: String, pat: String, from: nat)
    requires |pat| > 0 && from <= |s|
    requires forall j :: from <= j ==> !OccursAt(s, pat, j)
    ensures LastStart(s, pat, from) == from
  {
    FindFromIsLeftmost(s, pat, from);
  }

  lemma SplitFromNone(s: String, pat: String, from: nat)
    requires |pat| > 0 && from <= |s| && FindFrom(s, pat, from).None?
    ensures SplitFrom(s, pat, from) == [s[from..]] && LastStart(s, pat, from) == from
  {
  }

  lemma SplitFromStep(s: String, pat: String, from: nat, i: nat, n: nat)
    requires |pat| > 0 && from <= |s| && FindFrom(s, pat, from) == Some(i) && n == i + |pat|
    ensures from <= i && n <= |s|
    ensures SplitFrom(s, pat, from) == [s[from..i]] + SplitFrom(s, pat, n)
  {
  }

  lemma LastStartStep(s: String, pat: String, from: nat, i: nat, n: nat)
    requires |pat| > 0 && from <= |s| && FindFrom(s, pat, from) == Some(i) && n == i + |pat|
    ensures n <= |s| && LastStart(s, pat, from) == LastStart(s, pat, n)
  {
  }

  lemma LastOfCons<T>(a: T, t: seq<T>)
    requires |t| > 0
    ensures ([a] + t)[|[a] + t| - 1] == t[|t| - 1]
  {
  }

  /** `trim_start`: drop leading whitespace. */
  function TrimStart(s: String): (r: String)
    ensures EndsWith(s, r)
    ensures r == [] || !IsSpace(r[0])
    ensures forall i :: 0 <= i < |s| - |r| ==> IsSpace(s[i])
  {
    if |s| > 0 && IsSpace(s[0]) then
      var r := TrimStart(s[1..]);
      SuffixOfTail(s, r);
      r
    else s
  }

  lemma SuffixOfTail(s: String, r: String)
    requires |s| > 0 && EndsWith(s[1..], r)
    ensures EndsWith(s, r)
    ensures forall i :: 1 <= i < |s| - |r| ==> s[i] == s[1..][i - 1]
  {
    assert s[|s| - |r|..] == s[1..][|s| - 1 - |r|..];
  }

  /** `trim_end`: drop trailing whitespace. */
  function TrimEnd(s: String): (r: String)
    ensures StartsWith(s, r)
    ensures r == [] || !IsSpace(r[|r| - 1])
    ensures forall i :: |r| <= i < |s| ==> IsSpace(s[i])
  {
    if |s| > 0 && IsSpace(s[|s| - 1]) then TrimEnd(s[..|s| - 1]) else s
  }

  /** `trim`: drop whitespace at both ends. */
  function Trim(s: String): (r: String)
    ensures |r| <= |s|
    ensures r == [] || (!IsSpace(r[0]) && !IsSpace(r[|r| - 1]))
    ensures Contains(s, r)
    ensures exists i :: TrimmedAt(s, r, i)
  {
    var t := TrimStart(s);
    var r := TrimEnd(t);
    TrimmedAtStart(s, t, r);
    r
  }

  /** `r` is `s` with only whitespace removed before index `i` and after `r`. */
  predicate TrimmedAt(s: String, r: String, i: int) {
    && OccursAt(s, r, i)
    && (forall j :: 0 <= j < i ==> IsSpace(s[j]))
    && (forall j :: i + |r| <= j < |s| ==> IsSpace(s[j]))
  }

  lemma TrimmedAtStart(s: String, t: String, r: String)
    requires t == TrimStart(s) && r == TrimEnd(t)
    ensures TrimmedAt(s, r, |s| - |t|) && Contains(s, r)
  {
    InfixOfSuffix(s, t, r);
    TrailingSpaces(s, t, |r|);
  }

  /** Whitespace at the end of a suffix is whitespace at the end of the whole. */
  lemma TrailingSpaces(s: String, t: String, n: nat)
    requires EndsWith(s, t) && n <= |t|
    requires forall k :: n <= k < |t| ==> IsSpace(t[k])
    ensures forall j :: |s| - |t| + n <= j < |s| ==> IsSpace(s[j])
  {
    var i := |s| - |t|;
    forall j | i + n <= j < |s| ensures IsSpace(s[j]) {
      assert s[j] == s[i..][j - i];
    }
  }

  /** A prefix of a suffix of `s` occurs in `s`. */
  lemma InfixOfSuffix(s: String, t: String, r: String)
    requires EndsWith(s, t) && StartsWith(t, r)
    ensures OccursAt(s, r, |s| - |t|)
    ensures |r| > 0 ==> r[0] == t[0]
  {
    var a := |s| - |t|;
    forall k | 0 <= k < |r| ensures s[a + k] == r[k] {
      assert s[a + k] == s[a..][k];
      assert r[k] == t[..|r|][k];
    }
    assert OccursAt(s, r, a);
  }

  /** Trimming yields nothing exactly when the string is all whitespace. */
  lemma TrimEmpty(s: String)
    ensures Trim(s) == [] <==> forall i :: 0 <= i < |s| ==> IsSpace(s[i])
  {
    var t := TrimStart(s);
    if Trim(s) == [] {
      assert TrimEnd(t) == [];
      assert |t| == 0;
    }
  }

  /** `n` copies of `p`, one after another. */
  function Repeat(p: String, n: nat): (r: String)
    ensures |r| == n * |p|
  {
    if n == 0 then [] else p + Repeat(p, n - 1)
  }

  /** `trim_start_matches` with a string pattern: strip every leading repetition of `p`. */
  function TrimStartMatches(s: String, p: String): (r: String)
    requires |p| > 0
    ensures EndsWith(s, r)
    ensures !StartsWith(r, p)
    ensures exists n: nat :: s == Repeat(p, n) + r
    decreases |s|
  {
    if StartsWith(s, p) then
      var r := TrimStartMatches(s[|p|..], p);
      assert exists n: nat :: s == Repeat(p, n) + r by {
        var n: nat :| s[|p|..] == Repeat(p, n) + r;
        RepeatStep(s, p, n, r);
      }
      r
    else
      assert s == Repeat(p, 0) + s;
      s
  }

  lemma RepeatStep(s: String, p: String, n: nat, r: String)
    requires StartsWith(s, p) && s[|p|..] == Repeat(p, n) + r
    ensures s == Repeat(p, n + 1) + r
  {
    assert s == s[..|p|] + s[|p|..];
  }

  /**
   * Stripping copies of `p` followed by a text that does
   * not start with `p` leaves exactly that text.
   */
  lemma {:induction false} TrimStartMatchesOfRepeat(p: String, n: nat, v: String)
    requires |p| > 0 && !StartsWith(v, p)
    ensures TrimStartMatches(Repeat(p, n) + v, p) == v
    decreases n
  {
    var s := Repeat(p, n) + v;
    if n == 0 {
      assert s == v;
    } else {
      assert s == p + (Repeat(p, n - 1) + v);
      assert s[..|p|] == p;
      assert s[|p|..] == Repeat(p, n - 1) + v;
      TrimStartMatchesOfRepeat(p, n - 1, v);
    }
  }

  /** Length of the leading run of non-whitespace characters. */
  function WordEnd(s: String): (n: nat)
    ensures n <= |s|
    ensures forall i :: 0 <= i < n ==> !IsSpace(s[i])
    ensures n == |s| || IsSpace(s[n])
  {
    if |s| == 0 || IsSpace(s[0]) then 0 else 1 + WordEnd(s[1..])
  }

  /** `split_whitespace`: the maximal runs of non-whitespace characters, in order. */
  function SplitWhitespace(s: String): (r: seq<String>)
    ensures forall k :: 0 <= k < |r| ==> |r[k]| > 0 && NoSpace(r[k])
    decreases |s|
  {
    if |s| == 0 then []
    else if IsSpace(s[0]) then SplitWhitespace(s[1..])
    else
      var n := WordEnd(s);
      [s[..n]] + SplitWhitespace(s[n..])
  }

  /** There are no words exactly when the text is all whitespace. */
  lemma {:induction false} SplitWhitespaceEmpty(s: String)
    ensures SplitWhitespace(s) == [] <==> forall i :: 0 <= i < |s| ==> IsSpace(s[i])
    decreases |s|
  {
    if |s| > 0 && IsSpace(s[0]) {
      SplitWhitespaceEmpty(s[1..]);
      assert forall i :: 1 <= i < |s| ==> s[i] == s[1..][i - 1];
    }
  }

  lemma {:induction false} WordEndOfWord(w: String, rest: String)
    requires NoSpace(w)
    requires rest == [] || IsSpace(rest[0])
    ensures WordEnd(w + rest) == |w|
    decreases |w|
  {
    if |w| == 0 {
      assert w + rest == rest;
    } else {
      var s := w + rest;
      assert s[0] == w[0];
      assert !IsSpace(s[0]);
      assert s[1..] == w[1..] + rest;
      WordEndOfWord(w[1..], rest);
    }
  }

  /** A word followed by whitespace (or nothing) splits off as the first token. */
  lemma {:induction false} SplitWhitespaceWord(w: String, rest: String)
    requires |w| > 0 && NoSpace(w)
    requires rest == [] || IsSpace(rest[0])
    ensures SplitWhitespace(w + rest) == [w] + SplitWhitespace(rest)
  {
    WordEndOfWord(w, rest);
    var s := w + rest;
    assert s[..|w|] == w && s[|w|..] == rest;
  }

  /** A single word is its own only token. */
  lemma SplitWhitespaceOne(w: String)
    requires |w| > 0 && NoSpace(w)
    ensures SplitWhitespace(w) == [w]
  {
    assert w + [] == w;
    SplitWhitespaceWord(w, []);
    SplitWhitespaceEmpty([]);
  }

  /** Leading whitespace is skipped. */
  lemma {:induction false} SplitWhitespaceSpaces(sp: String, rest: String)
    requires forall i :: 0 <= i < |sp| ==> IsSpace(sp[i])
    ensures SplitWhitespace(sp + rest) == SplitWhitespace(rest)
    decreases |sp|
  {
    if |sp| == 0 {
      assert sp + rest == rest;
    } else {
      assert (sp + rest)[0] == sp[0];
      assert (sp + rest)[1..] == sp[1..] + rest;
      SplitWhitespaceSpaces(sp[1..], rest);
    }
  }

  /** `join`: the pieces with `sep` between consecutive ones. */
  function Join(ts: seq<String>, sep: String): (r: String)
    ensures |ts| == 1 ==> r == ts[0]
    ensures |ts| > 1 ==> StartsWith(r, ts[0] + sep)
  {
    if |ts| == 0 then []
    else if |ts| == 1 then ts[0]
    else
      var r := ts[0] + sep + Join(ts[1..], sep);
      assert r[..|ts[0] + sep|] == ts[0] + sep;
      r
  }

  /** Joining whitespace-free words with single spaces and splitting again gives the words back. */
  lemma {:induction false} SplitJoinRoundTrip(ts: seq<String>)
    requires forall k :: 0 <= k < |ts| ==> |ts[k]| > 0 && NoSpace(ts[k])
    ensures SplitWhitespace(Join(ts, " ")) == ts
  {
    if |ts| == 1 {
      SplitWhitespaceWord(ts[0], []);
      assert ts[0] + [] == ts[0];
    } else if |ts| > 1 {
      var tail := Join(ts[1..], " ");
      assert Join(ts, " ") == ts[0] + (" " + tail);
      SplitWhitespaceWord(ts[0], " " + tail);
      SplitWhitespaceSpaces(" ", tail);
      SplitJoinRoundTrip(ts[1..]);
    }
  }

  /** Drop one '\r' immediately before a removed '\n'. */
  function StripCr(line: String): String {
    if |line| > 0 && line[|line| - 1] == '\r' then line[..|line| - 1] else line
  }

  /** The index of the first '\n' at or after `from`. */
  function NextNewline(s: String, from: nat): (r: Option<nat>)
    ensures r.None? ==> forall j :: from <= j < |s| ==> s[j] != '\n'
    ensures r.Some? ==> from <= r.value < |s| && s[r.value] == '\n'
    ensures r.Some? ==> forall j :: from <= j < r.value ==> s[j] != '\n'
    decreases |s| - from
  {
    if from >= |s| then None
    else if s[from] == '\n' then Some(from)
    else NextNewline(s, from + 1)
  }

  /** The scan for '\n' in the second half of `x + y` is the scan in `y`, shifted. */
  lemma {:induction false} NextNewlineConcat(x: String, y: String, j: nat)
    ensures NextNewline(y, j).None? ==> NextNewline(x + y, |x| + j).None?
    ensures NextNewline(y, j).Some? ==> NextNewline(x + y, |x| + j) == Some(|x| + NextNewline(y, j).value)
    decreases |y| - j
  {
    if j < |y| {
      assert (x + y)[|x| + j] == y[j];
      if y[j] != '\n' {
        NextNewlineConcat(x, y, j + 1);
      }
    }
  }

  /** The lines of `s` from index `from` on. */
  function LinesFrom(s: String, from: nat): (r: seq<String>)
    requires from <= |s|
    ensures from == |s| <==> |r| == 0
    decreases |s| - from
  {
    if from == |s| then []
    else
      match NextNewline(s, from)
      case None => [s[from..]]
      case Some(i) => [StripCr(s[from..i])] + LinesFrom(s, i + 1)
  }

  /** No line holds a '\n'. */
  lemma {:induction false} LinesFromNoNewline(s: String, from: nat)
    requires from <= |s|
    ensures forall k :: 0 <= k < |LinesFrom(s, from)| ==> '\n' !in LinesFrom(s, from)[k]
    decreases |s| - from
  {
    if from < |s| {
      match NextNewline(s, from)
      case None =>
        NoNewlineIn(s, from, |s|);
      case Some(i) =>
        NoNewlineIn(s, from, i);
        LinesFromNoNewline(s, i + 1);
    }
  }

  lemma NoNewlineIn(s: String, from: nat, to: nat)
    requires from <= to <= |s|
    requires forall j :: from <= j < to ==> s[j] != '\n'
    ensures '\n' !in s[from..to]
    ensures '\n' !in StripCr(s[from..to])
  {
  }

  /**
   * `str::lines`: split after each '\n', dropping the "\n" or "\r\n" terminator;
   * a final terminator does not start an empty last line.
   */
  function Lines(s: String): (r: seq<String>)
    ensures |s| == 0 <==> |r| == 0
    ensures forall k :: 0 <= k < |r| ==> '\n' !in r[k]
  {
    LinesFromNoNewline(s, 0);
    LinesFrom(s, 0)
  }

  /** The lines, each followed by the terminator `term`. */
  function Terminated(ls: seq<String>, term: String): (r: String)
    ensures |ls| > 0 ==> r == ls[0] + term + Terminated(ls[1..], term)
  {
    if |ls| == 0 then [] else ls[0] + term + Terminated(ls[1..], term)
  }

  /** Lines ended by "\n" read back as themselves, provided none holds '\n' or ends in '\r'. */
  lemma {:induction false} LinesOfTerminated(ls: seq<String>)
    requires forall k :: 0 <= k < |ls| ==> '\n' !in ls[k] && !EndsWith(ls[k], "\r")
    ensures Lines(Terminated(ls, "\n")) == ls
  {
    if |ls| > 0 {
      LinesFirst(ls[0], Terminated(ls[1..], "\n"));
      LinesOfTerminated(ls[1..]);
    }
  }

  /** Lines ended by "\r\n" read back as themselves, whatever '\r' they hold. */
  lemma {:induction false} LinesOfCrLfTerminated(ls: seq<String>)
    requires forall k :: 0 <= k < |ls| ==> '\n' !in ls[k]
    ensures Lines(Terminated(ls, "\r\n")) == ls
  {
    if |ls| > 0 {
      var l := ls[0];
      var rest := Terminated(ls[1..], "\r\n");
      assert l + "\r\n" + rest == (l + "\r") + "\n" + rest;
      assert '\n' !in l + "\r";
      LinesFirst(l + "\r", rest);
      assert (l + "\r")[..|l|] == l;
      LinesOfCrLfTerminated(ls[1..]);
    }
  }

  /** A line without '\n' followed by '\n' is the first line, less a final '\r'. */
  lemma LinesFirst(l: String, rest: String)
    requires '\n' !in l
    ensures Lines(l + "\n" + rest) == [StripCr(l)] + Lines(rest)
  {
    var x := l + "\n";
    var s := x + rest;
    assert s == l + "\n" + rest;
    FirstNewline(l, rest);
    LinesFromStep(s, 0, |l|, |x|);
    assert s[0..|l|] == l;
    LinesFromConcat(x, rest, 0);
  }

  lemma FirstNewline(l: String, rest: String)
    requires '\n' !in l
    ensures NextNewline(l + "\n" + rest, 0) == Some(|l|)
  {
    var s := l + "\n" + rest;
    forall j | 0 <= j < |l| ensures s[j] != '\n' {
      assert s[j] == l[j];
    }
    NewlineSkip(s, 0, |l|);
  }

  /** The scan passes over a stretch holding no '\n'. */
  lemma {:induction false} NewlineSkip(s: String, from: nat, to: nat)
    requires from <= to <= |s|
    requires forall j :: from <= j < to ==> s[j] != '\n'
    ensures NextNewline(s, from) == NextNewline(s, to)
    decreases (to as int) - (from as int)
  {
    if from < to {
      NewlineSkip(s, from + 1, to);
    }
  }

  lemma LinesFromStep(s: String, from: nat, i: nat, n: nat)
    requires from < |s| && NextNewline(s, from) == Some(i) && n == i + 1
    ensures n <= |s| && LinesFrom(s, from) == [StripCr(s[from..i])] + LinesFrom(s, n)
  {
  }

  /** The lines from a point inside the second half of `x + y` are those of `y`. */
  lemma {:induction false} LinesFromConcat(x: String, y: String, j: nat)
    requires j <= |y|
    ensures LinesFrom(x + y, |x| + j) == LinesFrom(y, j)
    decreases |y| - j
  {
    if j < |y| {
      match NextNewline(y, j)
      case None =>
        LinesFromConcatNone(x, y, j);
      case Some(i) =>
        var n := i + 1;
        var s := x + y;
        calc {
          LinesFrom(s, |x| + j);
          {
            assert NextNewline(s, |x| + j) == Some(|x| + i) by {
              NextNewlineConcat(x, y, j);
            }
            LinesFromStep(s, |x| + j, |x| + i, |x| + n);
          }
          [StripCr(s[|x| + j..|x| + i])] + LinesFrom(s, |x| + n);
          { LinesFromConcat(x, y, n); }
          [StripCr(s[|x| + j..|x| + i])] + LinesFrom(y, n);
          { SliceOfConcat(x, y, j, i); }
          [StripCr(y[j..i])] + LinesFrom(y, n);
          { LinesFromStep(y, j, i, n); }
          LinesFrom(y, j);
        }
    }
  }

  lemma LinesFromConcatNone(x: String, y: String, j: nat)
    requires j < |y| && NextNewline(y, j).None?
    ensures LinesFrom(x + y, |x| + j) == [y[j..]] == LinesFrom(y, j)
  {
    NextNewlineConcat(x, y, j);
    SliceOfConcat(x, y, j, |y|);
    assert (x + y)[|x| + j..] == (x + y)[|x| + j..|x| + |y|];
    assert y[j..|y|] == y[j..];
  }
}

=== FILE: wrappers.dfy ===
/** The optional value used throughout the model, standing for Rust's `Option`. */
module Wrappers {

  datatype Option<+T> = None | Some(value: T)
}
